=== FILE: README.md ===
# gcs-cacher, modelled in Dafny

`gcs-cacher` saves a local directory to Google Cloud Storage as a gzip-compressed
tar archive under a cache key. It restores the freshest of several candidate keys
back into a directory. This project models the decision logic of
`cacher/cacher.go` and `main.go` over abstract inputs and proves what that logic
guarantees:

- the ordered request checks;
- the key-probing fold that picks the object to restore;
- the deferred `Close` calls that chain their errors onto the result;
- the `filepath.Walk` callback that filters and names archive entries;
- the tar replay loop that rebuilds files on disk;
- the repeatable `-restore` flag;
- `main`'s dispatch and exit code.

Storage, the disk, the process umask, the walk order, the streams' failures,
template evaluation and flag parsing enter as parameters. Everything else is a
pure function.

Files, in dependency order:

- `wrappers.dfy` holds `Option` (a Go value that may be nil) and `Result`.
- `seqs.dfy` holds `FlatMap`, a list built element by element, with its law for concatenations, and `Reverse`.
- `text.dfy` holds Go's `strings.Split`, `Join`, `Replace(…, -1)`, `TrimPrefix` and `TrimSpace`, with the lemmas relating them.
- `fs.dfy` holds an abstract filesystem. A path is a list of components, and every ancestor of a node is a directory. It also holds `os.MkdirAll`, `os.OpenFile` + `io.Copy`, `os.FileMode` and the mode a created file gets under the umask, `filepath.Join` and `filepath.Dir`.
- `errors.dfy` has one constructor per modelled error site. `%w` wrapping is a nested error, and close-error chaining is `Chained`.
- `closing.dfy` holds the deferred closes and their error chaining.
- `requests.dfy` holds `SaveRequest`, `RestoreRequest` and their validation.
- `selection.dfy` holds the restore key scan.
- `archive.dfy` holds the walk callback and the entry names.
- `replay.dfy` holds the tar extraction loop.
- `cacher.dfy` holds `Save` and `Restore`, composed from the modules above.
- `cli.dfy` holds `stringSliceFlag`, the templating of restore keys and `main`.

## Where the code and its description differ

In each of these cases the model follows the code.

- `Restore` rejects an empty bucket before it looks at the directory and the keys (cacher/cacher.go:190-194).
- Restored files are opened with `O_CREATE|O_RDWR` and no `O_TRUNC` (cacher/cacher.go:309).
  - An existing file keeps its old mode.
  - An existing file that is longer than the entry keeps its stale tail (`Fs.Overwrite`).
  - The files are therefore not "created/truncated with the entry's mode".
- When the walk fails part-way, `Save` still closes the storage writer, and that close commits the object.
  - A partial archive is therefore published under the key whenever the storage writer closes cleanly.
  - The failing file's tar header is written before the file is opened (cacher/cacher.go:140-148). The partial archive therefore ends with that file's header, followed by whatever bytes the failed copy had written.
  - `Cacher.Save` records this as `upload`, and `Cacher.SaveStoredEntries` states which entries such an object holds.
- A restored file is created with `os.FileMode(header.Mode)`, so the process umask applies. The mode is not simply the entry's mode.
  - Go passes only the permission bits and its own setuid, setgid and sticky flags to the system call.
  - The tar header's own `04000`, `02000` and `01000` bits are not those flags and are dropped (`Fs.CreatedMode`).
- An entry's name is the walked path with every occurrence of `dir` deleted (`strings.Replace(name, dir, "", -1)`, cacher/cacher.go:137), and then one leading "/" trimmed. Only the leading occurrence is meant.
  - With `dir` "nm", the file "nm/a/nm/b" is archived as "a//b" and restored at nm/a/b.
  - With `-dir .`, every "." is dropped, so "a.txt" is archived as "atxt".
  - With `dir` "x", the file "x/.x./f" is archived as "../f". `filepath.Join` at cacher/cacher.go:296 resolves the "..", so the file is restored at "f", beside "x" (`Archive.EntryNameEscapesDir`).
  - The round trip `Cacher.SaveThenRestore` therefore holds only for files in whose path `dir` does not recur below itself (`Archive.UnderDir`).
- A `-dir` that is not in `filepath.Clean` form is not stripped from entry names at all.
  - `filepath.Walk` reports every child as `filepath.Join(parent, name)`, which is always clean, so a `dir` such as "./foo", "a//b" or "foo/./bar" never occurs in the walked names.
  - `strings.Replace` at cacher/cacher.go:137 then deletes nothing, and the entry keeps the whole walked path.
  - With `-dir ./foo`, the file ./foo/a is archived as "foo/a", and the `filepath.Join` at cacher/cacher.go:296 restores it at foo/foo/a (`Archive.EntryNameKeepsUncleanDir`).
  - `Archive.UnderDir` therefore only holds for walked paths when `dir` is in clean form.
- With `-allow-failure`, a failed save or restore exits 0, not non-zero (main.go:74-78, 93-97).

## Model

| member | source | states |
|---|---|---|
| Requests.ValidateSave | cacher/cacher.go:57-78 | A nil request fails with "missing cache options". Otherwise the error is that of the first failing check among empty bucket, empty directory and empty key, in that order. It is nil exactly when all three are set. |
| Requests.ValidateRestore | cacher/cacher.go:185-206 | A nil request fails first. Then empty bucket, empty directory and an empty key list are checked in that order, and the first that fails decides the error. It is nil exactly when none fails. |
| Cacher.SaveInvalidDoesNothing | cacher/cacher.go:57-78 | An invalid save request fails before any storage call. Nothing is uploaded, and the walk is irrelevant to the outcome. |
| Selection.ScanCorrect | cacher/cacher.go:211-228 | Invariant of the probe loop. From a correct best-so-far, the fold ends with the first probe error naming its key. Without errors it ends with nothing exactly when no key exists, or with the freshest key, ties going to the earliest. |
| Selection.Scan | cacher/cacher.go:213-228 | A match the loop ends with is a listed key whose probe found an object with that update time. A best-so-far match is only ever replaced by a later one. An error names a key whose probe failed, with that probe's cause. |
| Selection.ScanFindsFailure | cacher/cacher.go:213-222 | The first failing probe ends the loop with an error naming its key and cause. |
| Selection.ScanStopsOnFailure | cacher/cacher.go:213-222 | Any failing probe among the keys still to be probed makes the loop fail. |
| Selection.BestStep | cacher/cacher.go:213-227 | One iteration past a key whose probe did not fail keeps the match equal to the freshest object so far, with ties going to the earliest key. |
| Selection.ScanWithoutFailure | cacher/cacher.go:213-228 | Without failing probes the loop succeeds. It ends with no match exactly when no key exists, and otherwise with the freshest key. |
| Selection.SelectMatch | cacher/cacher.go:211-234 | A match is a listed key whose object exists with that update time. A failure is either a cache miss listing every key or a failed probe of a listed key. |
| Selection.SelectMatchSpec | cacher/cacher.go:211-234 | The first non-"not exist" probe error aborts with that key and error. With no probe error and no existing key, the result is a cache miss listing all keys. Otherwise the match is a key whose `Updated` is at least every other existing key's and strictly later than every earlier existing key's. A match implies no probe failed and some key exists. |
| Selection.MatchIsFreshest | cacher/cacher.go:224-227 | With no probe error, the match is the freshest key, with its name and update time. |
| Selection.FreshestUnique | cacher/cacher.go:224-227 | The strict "after" comparison makes the winning key unique. |
| Selection.ProbingStopsAtFailure | cacher/cacher.go:213-222 | Keys after the first failing probe are never consulted: changing their probe results does not change the outcome. |
| Selection.ScanLocal | cacher/cacher.go:213-228 | The fold only looks at the listed keys' probe results. |
| Selection.SelectMatchLocal | cacher/cacher.go:211-234 | Two attribute lookups that agree on the listed keys select the same object. |
| Closing.UnwindChain | cacher/cacher.go:84-120 | The deferred closes run in reverse acquisition order. The resulting error consists of the original error's causes followed by every failed close in that order, so nothing is dropped. It is nil exactly when there was no error and every close succeeded. |
| Closing.UnwindClean | cacher/cacher.go:84-92 | Closes that all succeed leave `retErr` unchanged. |
| Closing.UnwindKeepsOriginal | cacher/cacher.go:84-92 | A failing close is appended to an existing error and never replaces it: the original error's causes stay at the head of the chain. |
| Closing.CloseInto | cacher/cacher.go:84-92 | One deferred close: the chain is the previous chain followed by this close's failure, if any. An existing error is never cleared. |
| Closing.Unwind | cacher/cacher.go:84-120 | Running the defers never clears an error the function was returning. |
| Archive.EncodeSpec | cacher/cacher.go:123-166 | The walk succeeds exactly when no visited path fails: a walk error, or a regular file whose header cannot be written, that cannot be opened, or whose copy fails. It then archives one entry per regular file, in walk order. Otherwise the first failure's error ends it, after the entries of the files before it and what the failing file had already written. |
| Archive.Encode | cacher/cacher.go:123-162 | The callback adds at most one entry per visited path. |
| Archive.EncodeFails | cacher/cacher.go:123-162 | The walk reports an error exactly when some visited path fails. |
| Archive.EncodeAll | cacher/cacher.go:123-162 | A walk without error archives exactly the reference entries, one per readable regular file in walk order. |
| Archive.EncodeStopsAt | cacher/cacher.go:123-166 | When path `f` is the first to fail, the archive is the entries of the paths before it followed by what `f` had written, and the error is `f`'s. |
| Archive.EncodeStopsAfter | cacher/cacher.go:123-162 | The same, for a walk split as the paths before the failing one, the failing path, and the rest. |
| Archive.EntryAt | cacher/cacher.go:123-162 | A readable regular file's entry sits right after the entries of the paths walked before it, and carries the file's name, permissions and bytes. |
| Archive.EntriesOrdered | cacher/cacher.go:123-162 | Entries keep the walk order: a file walked earlier has an earlier entry. |
| Archive.Origin | cacher/cacher.go:123-162 | Every entry comes from a readable regular file of the walk. |
| Archive.EntriesAppend | cacher/cacher.go:123-162 | The entries of a walk split in two are the entries of each part, in order. |
| Archive.NonRegularSkipped | cacher/cacher.go:128-130 | A directory, symlink, device, pipe or socket anywhere in the walk has no effect on the archive or the error. |
| Archive.EntryNameOfChild | cacher/cacher.go:137 | For `dir + "/" + rel` where `"/" + rel` does not contain `dir`, the entry is named `rel`. |
| Archive.EntryNameDeletesInnerOccurrences | cacher/cacher.go:137 | The name deletes every occurrence of `dir`, not only the leading one: with `dir` "a", the file "a/ba/x" is archived as "b/x". |
| Archive.EntryName | cacher/cacher.go:137 | The entry name is the walked path with its pieces between occurrences of `dir` glued together, minus one leading separator. |
| Archive.EntryNameEscapesDir | cacher/cacher.go:137 | As written, with `dir` "x" the file "x/.x./f" is archived as "../f". Extracting that entry into "x" targets "f", not the walked path "x/.x./f". |
| Archive.EntryNameKeepsUncleanDir | cacher/cacher.go:137 | As written, with `dir` "./foo" the walked file "foo/a" is archived as "foo/a" because nothing is deleted. Extracting that entry into "./foo" targets "foo/foo/a", not the walked path "foo/a". |
| Archive.ChildEntryTarget | cacher/cacher.go:137 | For a path `dir/rel` in whose remainder `dir` does not occur again, extracting its entry into `dir` targets that same path. |
| Text.ReplaceAllIsJoinOfSplit | cacher/cacher.go:137 | `strings.Replace(s, pat, repl, -1)` equals joining `strings.Split(s, pat)` with `repl`. |
| Text.ReplaceAllAbsent | cacher/cacher.go:137 | Replacing a string that does not occur returns the input unchanged. |
| Fs.JoinPathCleans | cacher/cacher.go:296 | `filepath.Join(dir, name)` is the cleaned form of `dir + "/" + name`: joining `name` to the cleaned `dir` piece by piece gives the same path as cleaning the joined text. |
| Fs.PathOf | cacher/cacher.go:296 | A cleaned path has no empty, "." or slash-containing component. Every ".." is resolved against the component before it, so ".." can only remain in a leading run. |
| Fs.CleanResolvesParent | cacher/cacher.go:296 | Cleaning "x/../f" gives "f": a ".." removes the component before it. |
| Fs.CleanKeepsLeadingParent | cacher/cacher.go:296 | Cleaning "../f" keeps the leading "..", which has nothing to resolve against. |
| Fs.JoinLeavesDir | cacher/cacher.go:296 | Joining "../f" to the directory "x" gives "f", a path outside "x". |
| Fs.MkdirAll | cacher/cacher.go:237-240 | Succeeds exactly when no prefix of the path is a file. On success every prefix is a directory, existing nodes are unchanged, and new nodes are directories on the path. A failure names a file on the path. |
| Fs.OpenAndCopy | cacher/cacher.go:309-324 | Succeeds exactly when the path is not the root, its parent is the root or a directory, and it is not a directory. A new file gets the content and the mode `os.FileMode(header.Mode)` creates under the umask. An existing file keeps its mode and is overwritten without truncation. |
| Fs.Overwrite | cacher/cacher.go:309-316 | Writing without `O_TRUNC`: the first bytes are the new content, and any longer previous content survives past it. |
| Fs.FileMode | cacher/cacher.go:309 | `os.FileMode(header.Mode)` keeps the mode modulo 2^32. |
| Fs.CreatedMode | cacher/cacher.go:309 | The mode a created file gets is at most `07777`. Its permission bits are the requested ones minus the umask. Setuid, setgid and sticky are set exactly when Go's `ModeSetuid`, `ModeSetgid` and `ModeSticky` flags are. |
| Fs.CreatedModeExamples | cacher/cacher.go:309 | With umask `022`, a tar mode `0100644` gives `0644` and `0666` gives `0644`. A tar `04755` loses its setuid bit and gives `0755`. With umask `000`, `ModeSetuid` with `0755` gives `04755`. |
| Replay.Step | cacher/cacher.go:292-327 | One header: a nil header changes nothing, and an unsupported flag fails naming the target. For the others, every node except a written file keeps its value, new nodes lie on the target's path and are directories unless they are the written file, and files and directories keep their kinds. |
| Replay.MakeDir | cacher/cacher.go:299-302 | A directory header succeeds exactly when no ancestor of the target is a file and the target is not a file. The target is then a directory, and only directories on its path are added. |
| Replay.WriteFile | cacher/cacher.go:303-324 | A regular header succeeds exactly when the target has a name, no ancestor is a file and the target is not a directory. A new file then gets the content and the header's mode as created under the umask. An existing file keeps its mode and is overwritten without truncation. |
| Replay.ReplayPrefix | cacher/cacher.go:278-332 | Headers are applied in order: replaying a concatenation applies the first part, then continues only if it succeeded. |
| Replay.Replay | cacher/cacher.go:278-332 | The loop succeeds only when the stream ends with `io.EOF`. |
| Replay.NoHeaderSkipped | cacher/cacher.go:292-294 | A nil header is skipped as if absent. |
| Replay.UnknownTypeStops | cacher/cacher.go:325-326 | An unsupported type flag fails with an error naming the target, and no later header is applied. |
| Replay.ReplaySuccess | cacher/cacher.go:280-285 | The loop succeeds only at `io.EOF` and never past an unsupported header. Every directory header's target is then a directory, and every regular header's target is a file. |
| Replay.ReplayKeepsKinds | cacher/cacher.go:299-324 | Files stay files and directories stay directories throughout extraction. |
| Replay.ReplayLeavesUntargeted | cacher/cacher.go:296-324 | A node no regular header targets keeps its exact content and mode, even when extraction fails. |
| Replay.ReplayAddsOnlyTargetPaths | cacher/cacher.go:296-307 | Every node extraction creates lies on the path to some header's target. |
| Replay.ReplayWritesFreshFile | cacher/cacher.go:303-324 | After a successful replay, a file written by exactly one header where nothing existed holds that header's content, with the header's mode as created under the umask. |
| Replay.UnpackableReplays | cacher/cacher.go:278-328 | An archive of regular files with fresh targets, none under another or under an existing file, extracts without error up to the stream's end. |
| Replay.UnpackRoundTrip | cacher/cacher.go:303-324 | Such an archive, ending in `io.EOF`, succeeds. Every entry's content then lies at its target, with the entry's mode as created under the umask. |
| Cacher.Save | cacher/cacher.go:56-168 | An invalid request returns its validation error and uploads nothing. For a valid request an object is committed exactly when the storage writer's close succeeds. It holds the request's bucket and key, and it is finished exactly when the tar and gzip writers closed cleanly. |
| Cacher.SaveSpec | cacher/cacher.go:80-166 | The error is the first failing walk item's error, if any, wrapped, followed by the tar, gzip and storage close failures in that order. It is nil exactly when the walk and every close succeed. |
| Cacher.SaveStoredEntries | cacher/cacher.go:80-166 | A committed object holds the entries of every readable regular file. After a failed walk it holds those of the files before the failing path, then what that path had written: nothing after a walk or header-write error, an empty entry after a failed open, and the copied bytes after a failed copy. |
| Cacher.SaveCloseOrder | cacher/cacher.go:84-120 | The writers close tar first, then gzip, then storage. |
| Cacher.Restore | cacher/cacher.go:184-334 | An invalid request returns its validation error with the disk untouched. Any object read is one of the listed keys. When no object was read, the call failed and the disk is unchanged. |
| Cacher.Fetch | cacher/cacher.go:242-334 | The download reads the matched object, and succeeds only if both readers opened. |
| Cacher.RestoreWithoutMatch | cacher/cacher.go:211-234 | A failed probe, or a miss on every key, fails with that error. The target directory is not created, and the disk is unchanged. |
| Cacher.RestoreFetchesFreshest | cacher/cacher.go:224-246 | With a match, a failure to create the target directory aborts with the disk unchanged. Otherwise the freshest key's object is downloaded into the created directory. |
| Cacher.FetchSpec | cacher/cacher.go:242-262 | A storage reader that fails to open is neither closed nor chained, and the disk is unchanged. A gzip-reader failure is followed by the storage reader's close failure, if any, and the disk is unchanged. |
| Cacher.FetchUnpacks | cacher/cacher.go:264-334 | With both readers open, the disk is what extraction left. The error is the extraction error, if any, wrapped, followed by the gzip and then storage close failures. |
| Cacher.RestoreCloseOrder | cacher/cacher.go:248-272 | The readers close gzip first, then storage. |
| Cacher.FetchSuccess | cacher/cacher.go:278-334 | A download succeeds only if both readers open and close cleanly, the archive reaches `io.EOF` and has no unsupported entry. Every file entry then exists as a file. |
| Cacher.RestoreSuccess | cacher/cacher.go:184-334 | `Restore` succeeds only through a successful download of the object it read. |
| Cacher.RestoreReadsOnlyListedKeys | cacher/cacher.go:211-243 | Two buckets that agree on the listed keys' attributes and objects give the same outcome. |
| Cacher.RestoreKeepsUnnamed | cacher/cacher.go:236-324 | A node already on disk that no regular entry of any listed object names is left exactly as it was. |
| Cacher.RestoreUnpacksArchive | cacher/cacher.go:236-324 | Restore side of the round trip. The freshest key holds an intact archive of regular files whose targets are fresh and do not overlap. Then `Restore` succeeds, reads that key, and every entry's content lies at `dir/name`, with the entry's mode as created under the umask. |
| Cacher.SaveThenRestore | cacher/cacher.go:56-334 | Save followed by restore gives the files back. The walk meets only readable paths `dir/rel` in whose remainder `dir` does not occur, and nothing fails. Since the walk reports clean paths, this needs `dir` to be in `filepath.Clean` form. The restore reads the saved object into the same directory, and the files' paths are fresh and do not nest. Then every regular file reappears at its own path with its bytes, and with its permissions as created under the umask. |
| Cli.Set | main.go:163-172 | Existing elements are kept as a prefix. The result is an empty non-nil slice only if the slice was one already. |
| Cli.KeysOf | main.go:163-172 | Every key one value contributes is non-empty, trimmed and comma-free. |
| Cli.String | main.go:157-162 | Splitting the printed text at commas gives back a non-empty list of comma-free keys. |
| Cli.SetNil | main.go:164-170 | The slice stays nil exactly when it was nil and the value consists only of commas and white space. |
| Cli.SetAddsCleanKeys | main.go:165-169 | Every element `Set` appends is non-empty, has no leading or trailing white space, and contains no comma. |
| Cli.CleanSplitBlank | main.go:165-169 | A value contributes no element exactly when all its characters are separators or white space. |
| Cli.CleanSplitStep | main.go:165-169 | A value contributes no key exactly when its first character is the separator or white space and the rest of it contributes none. |
| Cli.SetParsesString | main.go:157-172 | `Set` on the text `String` prints for clean keys gives those keys back. An empty list prints as "" and parses as nil. |
| Cli.SetTwice | main.go:163-172 | Giving `-restore a -restore b` equals giving `-restore a,b`. |
| Cli.KeysOfJoined | main.go:165-169 | The elements of two values joined by a comma are the elements of each in turn. |
| Cli.RestoreFlagIsJoin | main.go:163-172 | The flag after several values equals `Set` on their comma-joined text. |
| Cli.RestoreFlagNeverEmpty | main.go:80 | A non-nil `restore` flag holds at least one key, so restore always has a key to pass. |
| Cli.ExpandAll | main.go:81-89 | Restore keys are templated in order, with the same length and `keys[i]` the expansion of `restore[i]`. Otherwise the first failing template's error is returned. |
| Cli.Main | main.go:49-102 | A help argument (anywhere, program name included) exits 0, and a flag parse error exits 2. Positional arguments exit 1. A non-empty cache key selects save even when restore keys are given, and a template error exits 1. With no cache key a non-nil restore list selects restore; with neither, exit 1. A failed operation exits 0 exactly when `-allow-failure` is set. |
| Text.JoinSplit | main.go:161 | Joining the pieces of `strings.Split(s, sep)` with `sep` gives `s` back. |
| Text.SplitJoin | main.go:161-165 | Splitting the join of pieces free of a one-character separator gives the pieces back. |
| Text.SplitAround | main.go:165 | Splitting `a + sep + b` gives the pieces of `a` followed by those of `b`. |
| Text.TrimSpace | main.go:166 | The result has no white space at either end and is an infix of the input with only white space outside it. It is empty exactly when the input is all white space. |

## Left out

- The Cloud Storage client is not modelled: `New`, the object handles, the `ContentType`/`CacheControl` attributes and `context` cancellation. Probes, downloads and close outcomes are inputs.
- The gzip and tar byte formats are not modelled. An archive is a sequence of entries, and `Cacher.HeadersOf` assumes the tar reader returns exactly the entries the writer wrote.
- `gzip.NewWriterLevel` cannot fail at `BestCompression`, so its error branch (cacher/cacher.go:95-99) is not modelled.
- `tar.FileInfoHeader` cannot fail for a regular file, so its error branch (cacher/cacher.go:133-136) is not modelled.
- Archive: the `Close` of a walked file after a successful copy, and its error, are not modelled.
- Replay: a read error while copying an entry's content (cacher/cacher.go:314-319) and the `Close` of a written file are not modelled. A regular header carries its whole content.
- Directory modes (`0755` and the umask) are not modelled, because a directory node has no mode.
- Cacher.Save: the tar header's size field and the writer's byte count are not modelled. An entry cut short by a failed copy makes `tw.Close` fail ("missed writing"). The model does not derive this and takes the tar close outcome as an input.
- Fs.OpenAndCopy: permission checks are not modelled. Opening an existing read-only file with `O_RDWR` fails with `EACCES` in Go, but the model assumes every existing file is writable.
- Replay.WriteFile: inherits the missing permission check of `Fs.OpenAndCopy`.
- Replay.ReplayLeavesUntargeted: the disk holds only directories and regular files, so a symbolic link already in the destination is not modelled. Go's `os.MkdirAll` and `os.OpenFile` (cacher/cacher.go:299-309) follow such a link. With a link d/l to /etc and an entry "l/passwd", Go writes /etc/passwd, a node no header targets. The lemma holds only for a destination without links.
- Replay.ReplayAddsOnlyTargetPaths: assumes a destination without symbolic links, for the same reason. Through an existing link, Go creates nodes off every target's path.
- Cacher.RestoreKeepsUnnamed: assumes a destination without symbolic links, for the same reason. Through an existing link in `dir`, Go changes nodes no entry names.
- Cacher.SaveThenRestore: `dir` with a trailing "/" ("foo/") is excluded by `Archive.UnderDir`, although Go round-trips it, because `strings.Replace` then deletes "foo/" and leaves no leading "/" to trim.
- Paths are lists of components. "" and "." components are dropped and ".." is resolved against the component before it, as `filepath.Clean` does. Absolute and relative paths are not told apart: a ".." with nothing before it is kept, as for a relative path, while Go drops it after a leading "/". The separator is "/".
- Strings are sequences of characters, and their UTF-8 encoding is not modelled.
- `Updated` times are integers.
- The `Walk` traversal order is an input, and so are the walked names. Go's walk reports the root as given and every child in `filepath.Join` form.
- `HashGlob` and `HashFiles` (BLAKE2b over globbed files) are not modelled. The `-hash` flag is declared but never read.
- `text/template` evaluation in `parseTemplate` is the `expand` parameter of `Cli.Main`. The `hashGlob` template function is part of it.
- `flag.Parse` is an input, including its help and error outcomes. The `-restore` values it passes to `Set` are `Flags.restoreValues`.
- `os.Exit` is modelled by the exit code only. What is written to stderr is not modelled.
- Error messages are not modelled beyond which stage, key, name or path they carry.
- Fs.OpenAndCopy: when several `open` conditions fail at once, which error is reported is not specified by the source. The model reports the root, then a missing parent, then a file parent, then a directory target.
- Cli.Set: Go's `Set` also returns an error, which is always nil. The model returns only the new slice.

=== FILE: archive.dfy ===
/**
 * The archiving half of `Save`: the `filepath.Walk` callback that turns the
 * visited paths into tar entries. The walk order and the files' bytes are
 * inputs; the decisions (skip, abort, entry name) are modelled.
 */
module Archive {
  import opened Wrappers
  import opened Errors
  import Text
  import Fs
  import Seqs

  /** The kind `os.FileInfo.Mode()` reports. Only regular files are archived. */
  datatype FileKind = Regular | Dir | Symlink | Device | NamedPipe | Socket

  /** What archiving a regular file gives: its bytes; or the failure of
      `tw.WriteHeader`, before anything of the file is written; or, once its
      header is in the archive, the failure of `os.Open`, or the failure of
      `io.Copy` after the bytes `copied` reached the archive. */
  datatype FileData =
    | Contents(bytes: seq<Fs.byte>)
    | HeaderError(cause: Fault)
    | OpenError(cause: Fault)
    | CopyError(copied: seq<Fs.byte>, cause: Fault)

  /** One call of the walk callback: a visited path with its metadata, or an
      error `filepath.Walk` reports for a path (lstat or directory read failed). */
  datatype WalkItem =
    | Visit(name: string, kind: FileKind, perm: int, data: FileData)
    | WalkFault(name: string, cause: Fault)

  /** A tar header with the bytes written after it. */
  datatype TarEntry = TarEntry(name: string, mode: int, content: seq<Fs.byte>)

  /** The entries written to the archive, the last one possibly cut short by
      the failure that stopped the walk, and that failure, if any. */
  datatype Encoded = Encoded(entries: seq<TarEntry>, err: Option<Error>)

  /** The header name: every occurrence of `dir` in the walked path is deleted
      (`strings.Replace` with n = -1), then one leading separator is trimmed. */
  function EntryName(name: string, dir: string): (r: string)
    requires |dir| > 0
    ensures r == Text.TrimPrefix(Text.Join(Text.Split(name, dir), ""), "/")
  {
    Text.ReplaceAllIsJoinOfSplit(name, dir, "");
    Text.TrimPrefix(Text.ReplaceAll(name, dir, ""), "/")
  }

  /** The walk callback applied to every visited path in order; a callback
      error ends the walk. */
  function Encode(dir: string, walk: seq<WalkItem>): (r: Encoded)
    requires |dir| > 0
    ensures |r.entries| <= |walk|
    decreases |walk|
  {
    if walk == [] then Encoded([], None)
    else
      match walk[0]
      case WalkFault(name, cause) => Encoded([], Some(WalkError(name, cause)))
      case Visit(name, kind, perm, data) =>
        if kind != Regular then Encode(dir, walk[1..])
        else
          match data
          case HeaderError(cause) => Encoded([], Some(WriteHeaderFailed(name, cause)))
          case OpenError(cause) => Encoded([TarEntry(EntryName(name, dir), perm, [])], Some(OpenFileFailed(name, cause)))
          case CopyError(copied, cause) =>
            Encoded([TarEntry(EntryName(name, dir), perm, copied)], Some(WriteTarFailed(name, cause)))
          case Contents(bytes) =>
            var rest := Encode(dir, walk[1..]);
            Encoded([TarEntry(EntryName(name, dir), perm, bytes)] + rest.entries, rest.err)
  }

  /** The walk item makes the callback return an error. */
  predicate Fails(item: WalkItem) {
    item.WalkFault? || (item.kind == Regular && !item.data.Contents?)
  }

  /** The error the callback returns for a failing item. */
  function ErrorOf(item: WalkItem): Error
    requires Fails(item)
  {
    if item.WalkFault? then WalkError(item.name, item.cause)
    else if item.data.HeaderError? then WriteHeaderFailed(item.name, item.data.cause)
    else if item.data.OpenError? then OpenFileFailed(item.name, item.data.cause)
    else WriteTarFailed(item.name, item.data.cause)
  }

  /** What a failing item leaves in the archive: nothing when the walk or the
      header write failed, otherwise its header followed by the bytes copied
      before the failure (none when the file could not be opened). */
  function PartialOf(dir: string, item: WalkItem): seq<TarEntry>
    requires |dir| > 0 && Fails(item)
  {
    if item.WalkFault? || item.data.HeaderError? then []
    else if item.data.OpenError? then [TarEntry(EntryName(item.name, dir), item.perm, [])]
    else [TarEntry(EntryName(item.name, dir), item.perm, item.data.copied)]
  }

  /** A readable regular file: the items that become complete entries. */
  predicate Archived(item: WalkItem) {
    item.Visit? && item.kind == Regular && item.data.Contents?
  }

  /** The entry a walk item contributes when nothing fails. */
  function EntryOf(dir: string, item: WalkItem): seq<TarEntry>
    requires |dir| > 0
  {
    if Archived(item)
    then [TarEntry(EntryName(item.name, dir), item.perm, item.data.bytes)]
    else []
  }

  /** Reference definition: one entry per readable regular file, in walk order. */
  function Entries(dir: string, items: seq<WalkItem>): seq<TarEntry>
    requires |dir| > 0
  {
    Seqs.FlatMap(item => EntryOf(dir, item), items)
  }

  lemma EntriesAppend(dir: string, a: seq<WalkItem>, b: seq<WalkItem>)
    requires |dir| > 0
    ensures Entries(dir, a + b) == Entries(dir, a) + Entries(dir, b)
  {
    Seqs.FlatMapAppend(item => EntryOf(dir, item), a, b);
  }

  /** The entries of a walk led by one item. */
  lemma EntriesCons(dir: string, item: WalkItem, rest: seq<WalkItem>)
    requires |dir| > 0
    ensures Entries(dir, [item] + rest) == EntryOf(dir, item) + Entries(dir, rest)
  {
    EntriesAppend(dir, [item], rest);
    assert Entries(dir, [item]) == EntryOf(dir, item) + Entries(dir, []);
  }

  /** A readable regular file's entry sits after the entries of the items
      walked before it. */
  lemma EntryAt(dir: string, walk: seq<WalkItem>, i: int)
    requires |dir| > 0 && 0 <= i < |walk| && Archived(walk[i])
    ensures var k := |Entries(dir, walk[..i])|;
            k < |Entries(dir, walk)|
            && Entries(dir, walk)[k] == TarEntry(EntryName(walk[i].name, dir), walk[i].perm, walk[i].data.bytes)
  {
    assert walk == walk[..i] + ([walk[i]] + walk[i + 1..]);
    EntriesAppend(dir, walk[..i], [walk[i]] + walk[i + 1..]);
    EntriesCons(dir, walk[i], walk[i + 1..]);
  }

  /** Entries keep the order of the walk. */
  lemma EntriesOrdered(dir: string, walk: seq<WalkItem>, i: int, j: int)
    requires |dir| > 0 && 0 <= i < j <= |walk| && Archived(walk[i])
    ensures |Entries(dir, walk[..i])| < |Entries(dir, walk[..j])|
  {
    assert walk[..j] == walk[..i] + ([walk[i]] + walk[i + 1..j]);
    EntriesAppend(dir, walk[..i], [walk[i]] + walk[i + 1..j]);
    EntriesCons(dir, walk[i], walk[i + 1..j]);
  }

  /** Every entry comes from a readable regular file of the walk. */
  lemma {:induction false} Origin(dir: string, walk: seq<WalkItem>, k: int) returns (i: int)
    requires |dir| > 0 && 0 <= k < |Entries(dir, walk)|
    ensures 0 <= i < |walk| && Archived(walk[i]) && |Entries(dir, walk[..i])| == k
    decreases |walk|
  {
    assert walk == [walk[0]] + walk[1..];
    EntriesCons(dir, walk[0], walk[1..]);
    var n := |EntryOf(dir, walk[0])|;
    if Archived(walk[0]) && k == 0 {
      i := 0;
      assert Entries(dir, walk[..0]) == [];
    } else {
      var j := Origin(dir, walk[1..], k - n);
      i := j + 1;
      assert walk[..i] == [walk[0]] + walk[1..][..j];
      EntriesCons(dir, walk[0], walk[1..][..j]);
    }
  }

  /** One step of the walk, in terms of the reference definitions. */
  lemma EncodeCons(dir: string, walk: seq<WalkItem>)
    requires |dir| > 0 && walk != []
    ensures Encode(dir, walk) ==
              if Fails(walk[0]) then Encoded(PartialOf(dir, walk[0]), Some(ErrorOf(walk[0])))
              else Encoded(EntryOf(dir, walk[0]) + Encode(dir, walk[1..]).entries, Encode(dir, walk[1..]).err)
  {
  }

  /** Encoding as the walk promises it: with no failing item every readable
      regular file becomes an entry and nothing else does; otherwise the first
      failing item's error ends the walk, after the entries of the items before
      it and whatever the failing item itself had written. */
  lemma EncodeSpec(dir: string, walk: seq<WalkItem>)
    requires |dir| > 0
    ensures Encode(dir, walk).err.None? <==> forall i :: 0 <= i < |walk| ==> !Fails(walk[i])
    ensures Encode(dir, walk).err.None? ==> Encode(dir, walk).entries == Entries(dir, walk)
    ensures forall f :: 0 <= f < |walk| && Fails(walk[f]) && (forall i :: 0 <= i < f ==> !Fails(walk[i])) ==>
              Encode(dir, walk) == Encoded(Entries(dir, walk[..f]) + PartialOf(dir, walk[f]), Some(ErrorOf(walk[f])))
  {
    EncodeFails(dir, walk);
    EncodeAll(dir, walk);
    forall f | 0 <= f < |walk| && Fails(walk[f]) && (forall i :: 0 <= i < f ==> !Fails(walk[i]))
      ensures Encode(dir, walk) == Encoded(Entries(dir, walk[..f]) + PartialOf(dir, walk[f]), Some(ErrorOf(walk[f])))
    {
      EncodeStopsAt(dir, walk, f);
    }
  }

  lemma {:induction false} EncodeFails(dir: string, walk: seq<WalkItem>)
    requires |dir| > 0
    ensures Encode(dir, walk).err.None? <==> forall i :: 0 <= i < |walk| ==> !Fails(walk[i])
    decreases |walk|
  {
    if walk != [] {
      EncodeFails(dir, walk[1..]);
      EncodeCons(dir, walk);
      assert forall i :: 1 <= i < |walk| ==> walk[i] == walk[1..][i - 1];
    }
  }

  lemma {:induction false} EncodeAll(dir: string, walk: seq<WalkItem>)
    requires |dir| > 0
    ensures Encode(dir, walk).err.None? ==> Encode(dir, walk).entries == Entries(dir, walk)
    decreases |walk|
  {
    if walk != [] {
      EncodeAll(dir, walk[1..]);
      EncodeCons(dir, walk);
      assert Entries(dir, walk) == EntryOf(dir, walk[0]) + Entries(dir, walk[1..]);
    }
  }

  lemma EncodeStopsAt(dir: string, walk: seq<WalkItem>, f: int)
    requires |dir| > 0
    requires 0 <= f < |walk| && Fails(walk[f]) && forall i :: 0 <= i < f ==> !Fails(walk[i])
    ensures Encode(dir, walk) == Encoded(Entries(dir, walk[..f]) + PartialOf(dir, walk[f]), Some(ErrorOf(walk[f])))
  {
    assert walk == walk[..f] + [walk[f]] + walk[f + 1..];
    EncodeStopsAfter(dir, walk[..f], walk[f], walk[f + 1..]);
  }

  /** The walk `pre + [x] + post` where only `x` fails stops at `x`. */
  lemma {:induction false} EncodeStopsAfter(dir: string, pre: seq<WalkItem>, x: WalkItem, post: seq<WalkItem>)
    requires |dir| > 0 && Fails(x)
    requires forall i :: 0 <= i < |pre| ==> !Fails(pre[i])
    ensures Encode(dir, pre + [x] + post) == Encoded(Entries(dir, pre) + PartialOf(dir, x), Some(ErrorOf(x)))
    decreases |pre|
  {
    var walk := pre + [x] + post;
    if pre == [] {
      assert walk[0] == x;
      EncodeStopsHere(dir, walk);
      assert Entries(dir, pre) == [];
    } else {
      assert walk[0] == pre[0];
      assert walk[1..] == pre[1..] + [x] + post;
      EncodeStepOk(dir, walk);
      EncodeStopsAfter(dir, pre[1..], x, post);
      assert pre == [pre[0]] + pre[1..];
      EntriesCons(dir, pre[0], pre[1..]);
      var own := EntryOf(dir, pre[0]);
      var before := Entries(dir, pre[1..]);
      assert own + (before + PartialOf(dir, x)) == own + before + PartialOf(dir, x);
    }
  }


  /** A failing first item ends the walk at once. */
  lemma EncodeStopsHere(dir: string, walk: seq<WalkItem>)
    requires |dir| > 0 && walk != [] && Fails(walk[0])
    ensures Encode(dir, walk) == Encoded(PartialOf(dir, walk[0]), Some(ErrorOf(walk[0])))
  {
    EncodeCons(dir, walk);
  }

  /** A first item that does not fail contributes its entry and the walk goes on. */
  lemma EncodeStepOk(dir: string, walk: seq<WalkItem>)
    requires |dir| > 0 && walk != [] && !Fails(walk[0])
    ensures Encode(dir, walk) == Encoded(EntryOf(dir, walk[0]) + Encode(dir, walk[1..]).entries, Encode(dir, walk[1..]).err)
  {
    EncodeCons(dir, walk);
  }


  /** Non-regular paths (directories, symlinks, devices) leave no trace in the archive. */
  lemma {:induction false} NonRegularSkipped(dir: string, before: seq<WalkItem>, item: WalkItem, after: seq<WalkItem>)
    requires |dir| > 0
    requires item.Visit? && item.kind != Regular
    ensures Encode(dir, before + [item] + after) == Encode(dir, before + after)
    decreases |before|
  {
    if before == [] {
      assert before + [item] + after == [item] + after;
      assert ([item] + after)[1..] == after;
      assert before + after == after;
    } else {
      NonRegularSkipped(dir, before[1..], item, after);
      assert (before + [item] + after)[0] == before[0] == (before + after)[0];
      assert (before + [item] + after)[1..] == before[1..] + [item] + after;
      assert (before + after)[1..] == before[1..] + after;
    }
  }

  /** For a path under `dir` whose remainder does not contain `dir` again, the
      entry name is the path relative to `dir`. */
  lemma EntryNameOfChild(dir: string, rel: string)
    requires |dir| > 0
    requires !Text.Contains("/" + rel, dir)
    ensures EntryName(dir + "/" + rel, dir) == rel
  {
    var name := dir + "/" + rel;
    assert name[..|dir|] == dir;
    assert name[|dir|..] == "/" + rel;
    Text.ReplaceAllAbsent("/" + rel, dir, "");
  }

  /** A path the walk reports below `dir`: `dir`, a separator, and a
      remainder in which `dir` does not occur again. `filepath.Walk` reports
      every child as `filepath.Join(parent, name)`, which is clean, so such a
      path exists only when `dir` is itself in `filepath.Clean` form ("foo",
      not "./foo", "foo/./bar" or "foo/"). */
  predicate UnderDir(dir: string, name: string) {
    |name| > |dir| && name[..|dir|] == dir && name[|dir|] == '/' && !Text.Contains(name[|dir|..], dir)
  }

  /** Unpacking the entry of such a path into `dir` targets the path itself. */
  lemma ChildEntryTarget(dir: string, name: string)
    requires |dir| > 0 && UnderDir(dir, name)
    ensures Fs.JoinPath(dir, EntryName(name, dir)) == Fs.PathOf(name)
  {
    var rel := name[|dir| + 1..];
    assert name == dir + "/" + rel;
    assert name[|dir|..] == "/" + rel;
    EntryNameOfChild(dir, rel);
    Fs.JoinPathCleans(dir, rel);
  }

  /** Every occurrence is deleted, not only the leading one: with `dir` "a",
      the file "a/ba/x" is archived as "b/x". */
  lemma EntryNameDeletesInnerOccurrences()
    ensures EntryName("a/ba/x", "a") == "b/x"
  {
    var s := "a/ba/x";
    assert s[..1] == "a" && s[1..] == "/ba/x";
    assert Text.ReplaceAll("x", "a", "") == "x";
    assert "/x"[1..] == "x" && "/x"[..1] != "a";
    assert "a/x"[..1] == "a" && "a/x"[1..] == "/x";
    assert "ba/x"[..1] != "a" && "ba/x"[1..] == "a/x";
    assert "/ba/x"[..1] != "a" && "/ba/x"[1..] == "ba/x";
    assert Text.ReplaceAll(s, "a", "") == "/b/x";
  }

  /** A recurring `dir` can carry a file out of the directory: with `dir`
      "x", the file "x/.x./f" is archived as "../f", which unpacking into
      "x" writes at "f", beside "x" rather than at the walked path. */
  lemma EntryNameEscapesDir()
    ensures EntryName("x/.x./f", "x") == "../f"
    ensures Fs.JoinPath("x", EntryName("x/.x./f", "x")) == ["f"]
    ensures Fs.JoinPath("x", EntryName("x/.x./f", "x")) != Fs.PathOf("x/.x./f")
  {
    DeleteRecurringDir();
    Fs.JoinLeavesDir();
    WalkedPathOfExample();
  }

  lemma DeleteRecurringDir()
    ensures Text.ReplaceAll("x/.x./f", "x", "") == "/../f"
  {
    assert "x/.x./f"[..1] == "x" && "x/.x./f"[1..] == "/.x./f";
    assert "/.x./f"[..1] != "x" && "/.x./f"[1..] == ".x./f";
    assert ".x./f"[..1] != "x" && ".x./f"[1..] == "x./f";
    assert "x./f"[..1] == "x" && "x./f"[1..] == "./f";
    assert "./f"[..1] != "x" && "./f"[1..] == "/f";
    assert "/f"[..1] != "x" && "/f"[1..] == "f";
    assert "f"[..1] != "x" && "f"[1..] == "";
  }

  lemma WalkedPathOfExample()
    ensures Fs.PathOf("x/.x./f") == ["x", ".x.", "f"]
  {
    SplitWalkedExample();
    ResolveWalkedExample();
  }

  lemma ResolveWalkedExample()
    ensures Fs.Resolve([], ["x", ".x.", "f"]) == ["x", ".x.", "f"]
  {
    var parts := ["x", ".x.", "f"];
    assert Fs.CleanStep([], "x") == ["x"];
    assert Fs.CleanStep(["x"], ".x.") == ["x", ".x."];
    assert Fs.CleanStep(["x", ".x."], "f") == ["x", ".x.", "f"];
    assert Fs.Resolve([], parts) == Fs.Resolve(["x"], parts[1..]);
    assert Fs.Resolve(["x"], parts[1..]) == Fs.Resolve(["x", ".x."], parts[2..]);
  }

  lemma SplitWalkedExample()
    ensures Text.Split("x/.x./f", Fs.Slash) == ["x", ".x.", "f"]
  {
    var parts := ["x", ".x.", "f"];
    assert Text.Join(parts[2..], Fs.Slash) == "f";
    assert Text.Join(parts[1..], Fs.Slash) == ".x./f";
    assert Text.Join(parts, Fs.Slash) == "x/.x./f";
    Fs.SplitLiteral(parts, "x/.x./f");
  }

  /** A `dir` not in clean form never occurs in the cleaned paths the walk
      reports, so nothing is deleted: with `dir` "./foo", the file "foo/a" is
      archived as "foo/a", which unpacking into "./foo" writes at "foo/foo/a". */
  lemma EntryNameKeepsUncleanDir(dir: string, name: string)
    requires dir == "./foo" && name == "foo/a"
    ensures EntryName(name, dir) == name
    ensures Fs.JoinPath(dir, EntryName(name, dir)) == ["foo", "foo", "a"]
    ensures Fs.JoinPath(dir, EntryName(name, dir)) != Fs.PathOf(name)
  {
    UncleanDirDeletesNothing();
    UncleanDirJoin();
    CleanChildPathOf();
  }

  lemma UncleanDirDeletesNothing()
    ensures EntryName("foo/a", "./foo") == "foo/a"
  {
    assert "foo/a"[..5] != "./foo" && "foo/a"[1..] == "oo/a";
    assert Text.ReplaceAll("foo/a", "./foo", "") == "foo/a";
  }

  lemma UncleanDirJoin()
    ensures Fs.JoinPath("./foo", "foo/a") == ["foo", "foo", "a"]
  {
    UncleanDirPathOf();
    CleanChildSplit();
    assert Fs.JoinPath("./foo", "foo/a") == Fs.Resolve(["foo"], ["foo", "a"]);
    assert Fs.CleanStep(["foo"], "foo") == ["foo", "foo"];
    assert Fs.CleanStep(["foo", "foo"], "a") == ["foo", "foo", "a"];
    assert Fs.Resolve(["foo"], ["foo", "a"]) == Fs.Resolve(["foo", "foo"], ["a"]);
  }

  lemma CleanChildPathOf()
    ensures Fs.PathOf("foo/a") == ["foo", "a"]
  {
    CleanChildSplit();
    assert Fs.CleanStep([], "foo") == ["foo"];
    assert Fs.CleanStep(["foo"], "a") == ["foo", "a"];
    assert Fs.Resolve([], ["foo", "a"]) == Fs.Resolve(["foo"], ["a"]);
  }

  lemma UncleanDirPathOf()
    ensures Fs.PathOf("./foo") == ["foo"]
  {
    var parts := [".", "foo"];
    assert Text.Join(parts[1..], Fs.Slash) == "foo";
    assert Text.Join(parts, Fs.Slash) == "./foo";
    Fs.SplitLiteral(parts, "./foo");
    assert Fs.Resolve([], parts) == Fs.Resolve([], ["foo"]);
  }

  lemma CleanChildSplit()
    ensures Text.Split("foo/a", Fs.Slash) == ["foo", "a"]
  {
    var parts := ["foo", "a"];
    assert Text.Join(parts[1..], Fs.Slash) == "a";
    assert Text.Join(parts, Fs.Slash) == "foo/a";
    Fs.SplitLiteral(parts, "foo/a");
  }
}

=== FILE: cacher.dfy ===
/**
 * `Cacher.Save` and `Cacher.Restore`: validation, the storage calls, the
 * stream stack with its deferred closes, and the archive in between. The
 * storage service, the walk and the streams' failures are parameters; the
 * order of the steps, what each failure does and what reaches storage and
 * disk are modelled.
 */
module Cacher {
  import opened Wrappers
  import opened Errors
  import opened Requests
  import opened Closing
  import Selection
  import Archive
  import Replay
  import Fs
  import Seqs

  /** Everything `Save` observes once its request is valid: the walk of the
      directory and how the tar, gzip and storage writers close. */
  datatype SaveWorld = SaveWorld(walk: seq<Archive.WalkItem>, tarClose: Option<Fault>,
                                 gzipClose: Option<Fault>, gcsClose: Option<Fault>)

  /** An object committed to storage: the entries written before the walk
      ended (the last one cut short when a file failed after its header was
      written), and whether the tar and gzip trailers were flushed. */
  datatype Upload = Upload(bucket: string, key: string, entries: seq<Archive.TarEntry>, finished: bool)

  datatype Saved = Saved(err: Option<Error>, upload: Option<Upload>)

  /** The streams `Save` opens, in the order it opens them; their defers run
      the other way round. */
  function SaveClosers(w: SaveWorld): seq<Closer> {
    [Closer(GcsWriter, w.gcsClose), Closer(GzipWriter, w.gzipClose), Closer(TarWriter, w.tarClose)]
  }

  /** `Save`: validate, open the storage, gzip and tar writers, walk the
      directory into the archive, then close the writers in reverse. Closing
      the storage writer commits whatever was written, so the object exists
      exactly when that close succeeds, even after a failed walk. */
  function Save(req: Option<SaveRequest>, w: SaveWorld): (r: Saved)
    ensures ValidateSave(req).Some? ==> r == Saved(ValidateSave(req), None)
    ensures ValidateSave(req).None? ==> (r.upload.Some? <==> w.gcsClose.None?)
    ensures r.upload.Some? ==>
              && r.upload.value.bucket == req.value.bucket && r.upload.value.key == req.value.key
              && r.upload.value.finished == (w.tarClose.None? && w.gzipClose.None?)
  {
    match ValidateSave(req)
    case Some(e) => Saved(Some(e), None)
    case None =>
      var q := req.value;
      var encoded := Archive.Encode(q.dir, w.walk);
      var walkErr := if encoded.err.Some? then Some(WalkFilesFailed(encoded.err.value)) else None;
      var upload := if w.gcsClose.None? then Some(Upload(q.bucket, q.key, encoded.entries, w.tarClose.None? && w.gzipClose.None?))
                    else None;
      Saved(Unwind(walkErr, SaveClosers(w)), upload)
  }

  /** What `Save` reports for a valid request: the walk's error (if any), then
      the tar, gzip and storage close failures in that order; success exactly
      when the walk and every close succeed. */
  lemma SaveSpec(req: Option<SaveRequest>, w: SaveWorld)
    requires ValidateSave(req).None?
    ensures (forall i :: 0 <= i < |w.walk| ==> !Archive.Fails(w.walk[i])) ==>
              ChainOf(Save(req, w).err) == SaveCloseErrors(w)
    ensures forall f :: 0 <= f < |w.walk| && Archive.Fails(w.walk[f])
                        && (forall i :: 0 <= i < f ==> !Archive.Fails(w.walk[i])) ==>
              ChainOf(Save(req, w).err) == [WalkFilesFailed(Archive.ErrorOf(w.walk[f]))] + SaveCloseErrors(w)
    ensures Save(req, w).err.None? <==>
              (forall i :: 0 <= i < |w.walk| ==> !Archive.Fails(w.walk[i]))
              && w.tarClose.None? && w.gzipClose.None? && w.gcsClose.None?
  {
    var q := req.value;
    var encoded := Archive.Encode(q.dir, w.walk);
    Archive.EncodeSpec(q.dir, w.walk);
    var walkErr := if encoded.err.Some? then Some(WalkFilesFailed(encoded.err.value)) else None;
    assert Save(req, w).err == Unwind(walkErr, SaveClosers(w));
    UnwindChain(walkErr, SaveClosers(w));
    SaveCloseOrder(w);
  }

  /** The object a valid `Save` stores holds one entry per readable regular
      file, or, after a failed walk, the entries of the files before the
      failing one followed by what the failing file had written: its header,
      and the bytes copied before the failure. */
  lemma SaveStoredEntries(req: Option<SaveRequest>, w: SaveWorld)
    requires ValidateSave(req).None?
    ensures var r := Save(req, w);
            (forall i :: 0 <= i < |w.walk| ==> !Archive.Fails(w.walk[i])) && r.upload.Some? ==>
              r.upload.value.entries == Archive.Entries(req.value.dir, w.walk)
    ensures var r := Save(req, w);
            forall f :: 0 <= f < |w.walk| && Archive.Fails(w.walk[f])
                        && (forall i :: 0 <= i < f ==> !Archive.Fails(w.walk[i])) && r.upload.Some? ==>
              r.upload.value.entries
              == Archive.Entries(req.value.dir, w.walk[..f]) + Archive.PartialOf(req.value.dir, w.walk[f])
  {
    var dir := req.value.dir;
    Archive.EncodeFails(dir, w.walk);
    Archive.EncodeAll(dir, w.walk);
    forall f | 0 <= f < |w.walk| && Archive.Fails(w.walk[f]) && (forall i :: 0 <= i < f ==> !Archive.Fails(w.walk[i]))
      ensures Archive.Encode(dir, w.walk).entries == Archive.Entries(dir, w.walk[..f]) + Archive.PartialOf(dir, w.walk[f])
    {
      Archive.EncodeStopsAt(dir, w.walk, f);
    }
  }

  /** The close failures of the writers, in the order their defers run. */
  function SaveCloseErrors(w: SaveWorld): seq<Error> {
    CloseErrorOf(Closer(TarWriter, w.tarClose)) + CloseErrorOf(Closer(GzipWriter, w.gzipClose))
    + CloseErrorOf(Closer(GcsWriter, w.gcsClose))
  }

  /** The writers' defers run tar, then gzip, then storage. */
  lemma SaveCloseOrder(w: SaveWorld)
    ensures CloseErrors(Seqs.Reverse(SaveClosers(w))) == SaveCloseErrors(w)
  {
    var cs := SaveClosers(w);
    var rev := Seqs.Reverse(cs);
    assert rev == [cs[2], cs[1], cs[0]];
    assert rev[1..] == [cs[1], cs[0]] && rev[1..][1..] == [cs[0]] && rev[1..][1..][1..] == [];
    assert CloseErrors(rev[1..][1..]) == CloseErrorOf(Closer(GcsWriter, w.gcsClose));
    assert CloseErrors(rev[1..]) == CloseErrorOf(Closer(GzipWriter, w.gzipClose)) + CloseErrorOf(Closer(GcsWriter, w.gcsClose));
  }

  /** An invalid request fails before any storage call: nothing is uploaded
      and the walk is never looked at. */
  lemma SaveInvalidDoesNothing(req: Option<SaveRequest>, w1: SaveWorld, w2: SaveWorld)
    requires ValidateSave(req).Some?
    ensures Save(req, w1) == Save(req, w2)
    ensures Save(req, w1).upload.None? && Save(req, w1).err.Some?
  {
  }

  /** Everything `Restore` reads from one stored object: whether the reader
      and the gzip reader open, the tar headers with the stream's end, and how
      the two readers close. */
  datatype Download = Download(openFault: Option<Fault>, gzipFault: Option<Fault>,
                               headers: seq<Replay.TarHeader>, end: Replay.StreamEnd,
                               gzipClose: Option<Fault>, readerClose: Option<Fault>)

  /** The bucket as `Restore` sees it: each key's attribute lookup, and each
      object's download. */
  datatype Store = Store(attrs: string -> Selection.Probe, objects: string -> Download)

  /** The error, the filesystem afterwards, and the object whose reader was
      requested, if any. */
  datatype Restored = Restored(err: Option<Error>, fs: Fs.FileSystem, fetched: Option<string>)

  function RestoreClosers(d: Download): seq<Closer> {
    [Closer(GcsReader, d.readerClose), Closer(GzipReader, d.gzipClose)]
  }

  /** `Restore`: validate, pick the freshest existing key, create the target
      directory, open the object through gzip and unpack it, then close the
      readers in reverse. */
  function Restore(req: Option<RestoreRequest>, store: Store, fs: Fs.FileSystem, umask: Fs.Umask): (r: Restored)
    ensures ValidateRestore(req).Some? ==> r == Restored(ValidateRestore(req), fs, None)
    ensures r.fetched.Some? ==> r.fetched.value in req.value.keys
    ensures r.fetched.None? ==> r.err.Some? && r.fs == fs
  {
    match ValidateRestore(req)
    case Some(e) => Restored(Some(e), fs, None)
    case None =>
      var q := req.value;
      match Selection.SelectMatch(q.keys, store.attrs)
      case Err(e) => Restored(Some(e), fs, None)
      case Ok(m) =>
        Selection.SelectMatchSpec(q.keys, store.attrs);
        match Fs.MkdirAll(fs, Fs.PathOf(q.dir))
        case Err(e) => Restored(Some(MakeTargetFailed(e)), fs, None)
        case Ok(fs1) => Fetch(q.dir, m.name, store.objects(m.name), fs1, umask)
  }

  /** Downloading the matched object `name` once the target directory exists:
      open the storage reader and the gzip reader, unpack, close in reverse. */
  function Fetch(dir: string, name: string, d: Download, fs: Fs.FileSystem, umask: Fs.Umask): (r: Restored)
    ensures r.fetched == Some(name)
    ensures r.err.None? ==> d.openFault.None? && d.gzipFault.None?
  {
    if d.openFault.Some? then Restored(Some(ReaderFailed(d.openFault.value)), fs, Some(name))
    else if d.gzipFault.Some? then
      UnwindKeepsOriginal(GzipReaderFailed(d.gzipFault.value), [Closer(GcsReader, d.readerClose)]);
      Restored(Unwind(Some(GzipReaderFailed(d.gzipFault.value)), [Closer(GcsReader, d.readerClose)]),
               fs, Some(name))
    else
      var unpacked := Replay.Replay(fs, dir, umask, d.headers, d.end);
      var replayErr := if unpacked.err.Some? then Some(DownloadFailed(unpacked.err.value)) else None;
      Restored(Unwind(replayErr, RestoreClosers(d)), unpacked.fs, Some(name))
  }

  /** The readers' defers run gzip, then storage. */
  lemma RestoreCloseOrder(d: Download)
    ensures CloseErrors(Seqs.Reverse(RestoreClosers(d))) == RestoreCloseErrors(d)
  {
    var cs := RestoreClosers(d);
    var rev := Seqs.Reverse(cs);
    assert rev == [cs[1], cs[0]];
    assert rev[1..] == [cs[0]] && rev[1..][1..] == [];
    assert CloseErrors(rev[1..]) == CloseErrorOf(Closer(GcsReader, d.readerClose));
  }

  /** The close failures of the readers, in the order their defers run. */
  function RestoreCloseErrors(d: Download): seq<Error> {
    CloseErrorOf(Closer(GzipReader, d.gzipClose)) + CloseErrorOf(Closer(GcsReader, d.readerClose))
  }

  /** A failed attribute lookup or a miss on every key ends `Restore` before
      the disk is touched. */
  lemma RestoreWithoutMatch(req: Option<RestoreRequest>, store: Store, fs: Fs.FileSystem, umask: Fs.Umask)
    requires ValidateRestore(req).None?
    ensures var keys := req.value.keys;
            forall f :: Selection.FirstFailure(keys, store.attrs, f) ==>
              Restore(req, store, fs, umask)
              == Restored(Some(ListAttributesFailed(keys[f], store.attrs(keys[f]).cause)), fs, None)
    ensures var keys := req.value.keys;
            Selection.NoFailure(keys, store.attrs) && Selection.NoneExists(keys, store.attrs) ==>
              Restore(req, store, fs, umask) == Restored(Some(CacheMiss(keys)), fs, None)
  {
    Selection.SelectMatchSpec(req.value.keys, store.attrs);
  }

  /** With a match, `Restore` creates the target directory and then
      downloads the freshest key's object into it. */
  lemma RestoreFetchesFreshest(req: Option<RestoreRequest>, store: Store, fs: Fs.FileSystem, umask: Fs.Umask, w: int)
    requires ValidateRestore(req).None?
    requires Selection.NoFailure(req.value.keys, store.attrs)
    requires Selection.Freshest(req.value.keys, store.attrs, w)
    ensures var q := req.value;
            Fs.MkdirAll(fs, Fs.PathOf(q.dir)).Err? ==>
              Restore(req, store, fs, umask)
              == Restored(Some(MakeTargetFailed(Fs.MkdirAll(fs, Fs.PathOf(q.dir)).error)), fs, None)
    ensures var q := req.value;
            Fs.MkdirAll(fs, Fs.PathOf(q.dir)).Ok? ==>
              Restore(req, store, fs, umask)
              == Fetch(q.dir, q.keys[w], store.objects(q.keys[w]), Fs.MkdirAll(fs, Fs.PathOf(q.dir)).value, umask)
  {
    Selection.MatchIsFreshest(req.value.keys, store.attrs, w);
  }

  /** A reader that fails to open is not closed: the storage reader's failure
      is the whole error, and the gzip reader's is followed only by the storage
      reader's close failure. The disk is untouched. */
  lemma FetchSpec(dir: string, name: string, d: Download, fs: Fs.FileSystem, umask: Fs.Umask)
    ensures var r := Fetch(dir, name, d, fs, umask);
            d.openFault.Some? ==> r == Restored(Some(ReaderFailed(d.openFault.value)), fs, Some(name))
    ensures var r := Fetch(dir, name, d, fs, umask);
            d.openFault.None? && d.gzipFault.Some? ==>
              && r.fs == fs
              && ChainOf(r.err) == [GzipReaderFailed(d.gzipFault.value)] + CloseErrorOf(Closer(GcsReader, d.readerClose))
  {
    if d.openFault.None? && d.gzipFault.Some? {
      var only := [Closer(GcsReader, d.readerClose)];
      UnwindChain(Some(GzipReaderFailed(d.gzipFault.value)), only);
      assert Seqs.Reverse(only) == only;
      assert CloseErrors(only) == CloseErrorOf(only[0]) + CloseErrors([]);
    }
  }

  /** Once both readers are open, the download's error is the extraction
      error, wrapped, followed by the gzip and then the storage reader's close
      failures; the disk is what extraction left. */
  lemma FetchUnpacks(dir: string, name: string, d: Download, fs: Fs.FileSystem, umask: Fs.Umask)
    requires d.openFault.None? && d.gzipFault.None?
    ensures var r := Fetch(dir, name, d, fs, umask);
            var u := Replay.Replay(fs, dir, umask, d.headers, d.end);
            && r.fs == u.fs
            && ChainOf(r.err) == (if u.err.Some? then [DownloadFailed(u.err.value)] else []) + RestoreCloseErrors(d)
  {
    var u := Replay.Replay(fs, dir, umask, d.headers, d.end);
    UnwindChain(if u.err.Some? then Some(DownloadFailed(u.err.value)) else None, RestoreClosers(d));
    RestoreCloseOrder(d);
  }

  /** A download succeeds only by reading a whole archive through to the end
      of the stream, with no unsupported entry and both readers opening and
      closing cleanly; every file entry then exists on disk as a file. */
  lemma FetchSuccess(dir: string, name: string, d: Download, fs: Fs.FileSystem, umask: Fs.Umask)
    ensures var r := Fetch(dir, name, d, fs, umask);
            r.err.None? ==>
              && d.openFault.None? && d.gzipFault.None? && d.gzipClose.None? && d.readerClose.None?
              && d.end == Replay.Eof
              && (forall i :: 0 <= i < |d.headers| ==> !d.headers[i].OtherHeader?)
              && (forall i :: 0 <= i < |d.headers| && d.headers[i].RegHeader? ==>
                    Replay.Target(dir, d.headers[i]) in r.fs && r.fs[Replay.Target(dir, d.headers[i])].File?)
  {
    if d.openFault.None? && d.gzipFault.None? {
      Replay.ReplaySuccess(fs, dir, umask, d.headers, d.end);
      FetchUnpacks(dir, name, d, fs, umask);
    }
  }

  /** `Restore` succeeds only through a download that succeeds. */
  lemma RestoreSuccess(req: Option<RestoreRequest>, store: Store, fs: Fs.FileSystem, umask: Fs.Umask)
    ensures var r := Restore(req, store, fs, umask);
            r.err.None? ==>
              && r.fetched.Some?
              && Fs.MkdirAll(fs, Fs.PathOf(req.value.dir)).Ok?
              && r == Fetch(req.value.dir, r.fetched.value, store.objects(r.fetched.value),
                            Fs.MkdirAll(fs, Fs.PathOf(req.value.dir)).value, umask)
              && Fetch(req.value.dir, r.fetched.value, store.objects(r.fetched.value),
                       Fs.MkdirAll(fs, Fs.PathOf(req.value.dir)).value, umask).err.None?
  {
  }

  /** Only the listed keys are consulted, in the bucket's attributes and its
      objects alike. */
  lemma RestoreReadsOnlyListedKeys(req: Option<RestoreRequest>, store: Store, other: Store, fs: Fs.FileSystem, umask: Fs.Umask)
    requires req.Some?
    requires forall k :: 0 <= k < |req.value.keys| ==>
               other.attrs(req.value.keys[k]) == store.attrs(req.value.keys[k])
               && other.objects(req.value.keys[k]) == store.objects(req.value.keys[k])
    ensures Restore(req, other, fs, umask) == Restore(req, store, fs, umask)
  {
    var keys := req.value.keys;
    Selection.SelectMatchLocal(keys, store.attrs, other.attrs);
    Selection.SelectMatchSpec(keys, store.attrs);
  }

  /** A node already on disk that no regular-file entry of any listed key's
      object names is never changed by `Restore`. */
  lemma RestoreKeepsUnnamed(req: Option<RestoreRequest>, store: Store, fs: Fs.FileSystem, umask: Fs.Umask, p: Fs.Path)
    requires req.Some? && p in fs
    requires forall k, i :: (0 <= k < |req.value.keys| && 0 <= i < |store.objects(req.value.keys[k]).headers|
                             && store.objects(req.value.keys[k]).headers[i].RegHeader?) ==>
               Replay.Target(req.value.dir, store.objects(req.value.keys[k]).headers[i]) != p
    ensures p in Restore(req, store, fs, umask).fs && Restore(req, store, fs, umask).fs[p] == fs[p]
  {
    var r := Restore(req, store, fs, umask);
    if r.fetched.Some? {
      var q := req.value;
      var k :| 0 <= k < |q.keys| && q.keys[k] == r.fetched.value;
      var d := store.objects(q.keys[k]);
      var fs1 := Fs.MkdirAll(fs, Fs.PathOf(q.dir)).value;
      Replay.ReplayLeavesUntargeted(fs1, q.dir, umask, d.headers, d.end, p);
    }
  }

  /** The tar headers an archive of `entries` is read back as. */
  function HeadersOf(entries: seq<Archive.TarEntry>): seq<Replay.TarHeader> {
    seq(|entries|, i requires 0 <= i < |entries| => Replay.RegHeader(entries[i].name, entries[i].mode, entries[i].content))
  }

  /** The cache round trip, restore side: when the freshest key holds an
      intact archive of regular files whose targets are fresh and do not
      overlap, `Restore` succeeds and every entry's bytes land at
      `dir/name`, with the mode a new file gets under the umask. */
  lemma RestoreUnpacksArchive(req: Option<RestoreRequest>, store: Store, fs: Fs.FileSystem, umask: Fs.Umask, w: int,
                              entries: seq<Archive.TarEntry>)
    requires ValidateRestore(req).None?
    requires Selection.NoFailure(req.value.keys, store.attrs)
    requires Selection.Freshest(req.value.keys, store.attrs, w)
    requires store.objects(req.value.keys[w]) == Download(None, None, HeadersOf(entries), Replay.Eof, None, None)
    requires Fs.MkdirAll(fs, Fs.PathOf(req.value.dir)).Ok?
    requires Replay.Unpackable(Fs.MkdirAll(fs, Fs.PathOf(req.value.dir)).value, req.value.dir, HeadersOf(entries))
    ensures var r := Restore(req, store, fs, umask);
            && r.err.None? && r.fetched == Some(req.value.keys[w])
            && forall i :: 0 <= i < |entries| ==>
                 var t := Fs.JoinPath(req.value.dir, entries[i].name);
                 t in r.fs && r.fs[t] == Fs.File(Fs.NewFileMode(entries[i].mode, umask), entries[i].content)
  {
    var q := req.value;
    var d := store.objects(q.keys[w]);
    var fs1 := Fs.MkdirAll(fs, Fs.PathOf(q.dir)).value;
    RestoreFetchesFreshest(req, store, fs, umask, w);
    FetchUnpacks(q.dir, q.keys[w], d, fs1, umask);
    Replay.UnpackRoundTrip(fs1, q.dir, umask, d.headers);
    forall i | 0 <= i < |entries|
      ensures Replay.Target(q.dir, d.headers[i]) == Fs.JoinPath(q.dir, entries[i].name)
    {
      assert d.headers[i].name == entries[i].name;
    }
  }

  /** Saving a directory and restoring the stored object into the same
      directory gives every saved file back: when the walk meets only readable
      files below `dir`, nothing fails, and the files' paths are fresh and do
      not nest, each regular file reappears at its own path with its bytes and
      its permissions under the umask. */
  lemma SaveThenRestore(sreq: Option<SaveRequest>, w: SaveWorld, rreq: Option<RestoreRequest>,
                        store: Store, fs: Fs.FileSystem, umask: Fs.Umask, k: int)
    requires ValidateSave(sreq).None? && ValidateRestore(rreq).None?
    requires forall i :: 0 <= i < |w.walk| ==> !Archive.Fails(w.walk[i])
    requires forall i :: 0 <= i < |w.walk| && Archive.Archived(w.walk[i]) ==> Archive.UnderDir(sreq.value.dir, w.walk[i].name)
    requires w.tarClose.None? && w.gzipClose.None? && w.gcsClose.None?
    requires rreq.value.dir == sreq.value.dir
    requires Selection.NoFailure(rreq.value.keys, store.attrs) && Selection.Freshest(rreq.value.keys, store.attrs, k)
    requires rreq.value.keys[k] == sreq.value.key
    requires store.objects(sreq.value.key) == Download(None, None, HeadersOf(Save(sreq, w).upload.value.entries), Replay.Eof, None, None)
    requires Fs.MkdirAll(fs, Fs.PathOf(sreq.value.dir)).Ok?
    requires var fs1 := Fs.MkdirAll(fs, Fs.PathOf(sreq.value.dir)).value;
             forall i :: 0 <= i < |w.walk| && Archive.Archived(w.walk[i]) ==>
               var t := Fs.PathOf(w.walk[i].name);
               t != [] && t !in fs1 && Replay.AncestorsFree(fs1, t)
    requires forall i, j :: 0 <= i < |w.walk| && 0 <= j < |w.walk| && i != j
                            && Archive.Archived(w.walk[i]) && Archive.Archived(w.walk[j]) ==>
               !(Fs.PathOf(w.walk[j].name) <= Fs.PathOf(w.walk[i].name))
    ensures var r := Restore(rreq, store, fs, umask);
            && r.err.None? && r.fetched == Some(sreq.value.key)
            && forall i :: 0 <= i < |w.walk| && Archive.Archived(w.walk[i]) ==>
                 var t := Fs.PathOf(w.walk[i].name);
                 t in r.fs && r.fs[t] == Fs.File(Fs.NewFileMode(w.walk[i].perm, umask), w.walk[i].data.bytes)
  {
    var dir := sreq.value.dir;
    var walk := w.walk;
    var entries := Save(sreq, w).upload.value.entries;
    SaveStoredEntries(sreq, w);
    assert entries == Archive.Entries(dir, walk);
    var fs1 := Fs.MkdirAll(fs, Fs.PathOf(dir)).value;
    var hs := HeadersOf(entries);
    forall n | 0 <= n < |hs|
      ensures exists i :: (0 <= i < |walk| && Archive.Archived(walk[i]) && Replay.Target(dir, hs[n]) == Fs.PathOf(walk[i].name)
                           && |Archive.Entries(dir, walk[..i])| == n)
    {
      var i := Archive.Origin(dir, walk, n);
      Archive.EntryAt(dir, walk, i);
      Archive.ChildEntryTarget(dir, walk[i].name);
    }
    assert Replay.Unpackable(fs1, dir, hs);
    RestoreUnpacksArchive(rreq, store, fs, umask, k, entries);
    forall i | 0 <= i < |walk| && Archive.Archived(walk[i])
      ensures var t := Fs.PathOf(walk[i].name);
              t in Restore(rreq, store, fs, umask).fs
              && Restore(rreq, store, fs, umask).fs[t] == Fs.File(Fs.NewFileMode(walk[i].perm, umask), walk[i].data.bytes)
    {
      Archive.EntryAt(dir, walk, i);
      Archive.ChildEntryTarget(dir, walk[i].name);
    }
  }
}

=== FILE: cli.dfy ===
/**
 * The `gcs-cacher` command: the repeatable `-restore` flag, the expansion of
 * every key as a template, and the choice between saving and restoring with
 * its exit code. Flag parsing, template evaluation and the two cacher calls
 * are parameters; what the command does with their results is modelled.
 */
module Cli {
  import opened Wrappers
  import opened Errors
  import opened Requests
  import Text
  import Seqs

  /** The separator of `-restore` values. */
  const Comma: string := ","

  lemma CommaPiecesAvoid(value: string)
    ensures forall i :: 0 <= i < |Text.Split(value, Comma)| ==> ',' !in Text.Split(value, Comma)[i]
  {
    Text.SplitPiecesAvoid(value, ',');
  }

  lemma CommaSplitJoin(keys: seq<string>)
    requires |keys| >= 1
    requires forall i :: 0 <= i < |keys| ==> ',' !in keys[i]
    ensures Text.Split(Text.Join(keys, Comma), Comma) == keys
  {
    Text.SplitJoin(keys, ',');
  }

  lemma CommaSplitAround(a: string, b: string)
    ensures Text.Split(a + Comma + b, Comma) == Text.Split(a, Comma) + Text.Split(b, Comma)
  {
    Text.SplitAround(a, ',', b);
    assert a + Comma + b == a + [','] + b;
  }

  /** `s` has no white space at either end. */
  predicate Trimmed(s: string) {
    s == [] || (!Text.IsSpace(s[0]) && !Text.IsSpace(s[|s| - 1]))
  }

  /** A key as the `-restore` flag stores it: non-empty, trimmed, comma-free. */
  predicate CleanKey(k: string) {
    k != "" && Trimmed(k) && ',' !in k
  }

  lemma TrimmedIsFixed(s: string)
    requires Trimmed(s)
    ensures Text.TrimSpace(s) == s
  {
  }

  /** The pieces, trimmed, with the empty ones dropped. */
  function Clean(pieces: seq<string>): seq<string> {
    Seqs.FlatMap(CleanOne, pieces)
  }

  /** The key one piece contributes: itself trimmed, unless that is empty. */
  function CleanOne(piece: string): seq<string> {
    var k := Text.TrimSpace(piece);
    if k != "" then [k] else []
  }

  lemma CleanAppend(a: seq<string>, b: seq<string>)
    ensures Clean(a + b) == Clean(a) + Clean(b)
  {
    Seqs.FlatMapAppend(CleanOne, a, b);
  }

  /** Every key `Clean` keeps is non-empty and trimmed, and trimming brings
      in no character the pieces did not have. */
  lemma {:induction false} CleanGivesKeys(pieces: seq<string>, c: char)
    requires forall i :: 0 <= i < |pieces| ==> c !in pieces[i]
    ensures forall i :: 0 <= i < |Clean(pieces)| ==>
              Clean(pieces)[i] != "" && Trimmed(Clean(pieces)[i]) && c !in Clean(pieces)[i]
    decreases |pieces|
  {
    if pieces != [] {
      var k := Text.TrimSpace(pieces[0]);
      var j :| 0 <= j <= |pieces[0]| && Text.OccursAt(pieces[0], k, j);
      Text.OccursAtChars(pieces[0], k, j);
      CleanGivesKeys(pieces[1..], c);
      var own := CleanOne(pieces[0]);
      var rest := Clean(pieces[1..]);
      forall i | 0 <= i < |own + rest|
        ensures (own + rest)[i] != "" && Trimmed((own + rest)[i]) && c !in (own + rest)[i]
      {
        if i >= |own| {
          assert (own + rest)[i] == rest[i - |own|];
        }
      }
    }
  }

  /** Clean keys are kept as they are. */
  lemma {:induction false} CleanOfClean(keys: seq<string>)
    requires forall i :: 0 <= i < |keys| ==> CleanKey(keys[i])
    ensures Clean(keys) == keys
    decreases |keys|
  {
    if keys != [] {
      TrimmedIsFixed(keys[0]);
      CleanOfClean(keys[1..]);
    }
  }

  /** The keys one `-restore` value contributes: each non-empty, trimmed and
      comma-free. */
  function KeysOf(value: string): (keys: seq<string>)
    ensures forall i :: 0 <= i < |keys| ==> CleanKey(keys[i])
  {
    CommaPiecesAvoid(value);
    CleanGivesKeys(Text.Split(value, Comma), ',');
    Clean(Text.Split(value, Comma))
  }

  /** `stringSliceFlag.Set`: split the value at commas, keep the non-blank
      trimmed pieces, append them. A nil slice stays nil when nothing is added. */
  function Set(cur: Option<seq<string>>, value: string): (r: Option<seq<string>>)
    ensures cur.Some? ==> r.Some? && cur.value <= r.value
    ensures r == Some([]) ==> cur == Some([])
  {
    Append(cur, KeysOf(value))
  }

  /** Go's `append(s, added...)`: appending nothing to a nil slice leaves it nil. */
  function Append(cur: Option<seq<string>>, added: seq<string>): Option<seq<string>> {
    if added == [] then cur else Some(cur.GetOr([]) + added)
  }

  lemma AppendTwice(cur: Option<seq<string>>, a: seq<string>, b: seq<string>)
    ensures Append(Append(cur, a), b) == Append(cur, a + b)
  {
    if a == [] {
      assert a + b == b;
    } else if b == [] {
      assert a + b == a;
    } else {
      assert Append(cur, a).GetOr([]) == cur.GetOr([]) + a;
      assert cur.GetOr([]) + a + b == cur.GetOr([]) + (a + b);
    }
  }

  /** `Set` leaves the slice nil only when it was nil and the value holds
      nothing but commas and white space. */
  lemma SetNil(cur: Option<seq<string>>, value: string)
    ensures Set(cur, value).None? <==>
              cur.None? && forall k :: 0 <= k < |value| ==> value[k] == ',' || Text.IsSpace(value[k])
  {
    CleanSplitBlank(value, ',');
  }

  /** A value contributes no key exactly when it is all separators and white space. */
  lemma {:induction false} CleanSplitBlank(value: string, c: char)
    ensures Clean(Text.Split(value, [c])) == [] <==>
              forall k :: 0 <= k < |value| ==> value[k] == c || Text.IsSpace(value[k])
    decreases |value|
  {
    if |value| == 0 {
      assert Text.Split(value, [c]) == [""];
      assert Clean([""]) == Clean([]);
    } else {
      CleanSplitBlank(value[1..], c);
      CleanSplitStep(value, c);
      assert forall k :: 1 <= k < |value| ==> value[k] == value[1..][k - 1];
    }
  }

  /** The first character of a value decides with the rest whether it
      contributes a key. */
  lemma CleanSplitStep(value: string, c: char)
    requires value != []
    ensures Clean(Text.Split(value, [c])) == [] <==>
              (value[0] == c || Text.IsSpace(value[0])) && Clean(Text.Split(value[1..], [c])) == []
  {
    var tail := value[1..];
    var rest := Text.Split(tail, [c]);
    assert value == [value[0]] + tail;
    Text.SplitCons(value[0], tail, c);
    if value[0] == c {
      CleanBlankCons([""] + rest);
      assert ([""] + rest)[1..] == rest;
    } else {
      CleanBlankCons([[value[0]] + rest[0]] + rest[1..]);
      CleanBlankCons(rest);
      BlankHead(value[0], rest[0]);
    }
  }



  lemma CleanBlankCons(pieces: seq<string>)
    requires pieces != []
    ensures Clean(pieces) == [] <==> Text.TrimSpace(pieces[0]) == "" && Clean(pieces[1..]) == []
  {
  }

  lemma BlankHead(c: char, p: string)
    ensures Text.TrimSpace([c] + p) == "" <==> Text.IsSpace(c) && Text.TrimSpace(p) == ""
  {
    var s := [c] + p;
    assert forall k :: 1 <= k < |s| ==> s[k] == p[k - 1];
    if Text.IsSpace(c) && Text.TrimSpace(p) == "" {
      assert forall k :: 0 <= k < |s| ==> Text.IsSpace(s[k]);
    }
    if Text.TrimSpace(s) == "" {
      assert Text.IsSpace(s[0]);
      assert forall k :: 0 <= k < |p| ==> Text.IsSpace(p[k]) by {
        forall k | 0 <= k < |p| ensures Text.IsSpace(p[k]) { assert p[k] == s[k + 1]; }
      }
    }
  }

  /** Every key `Set` appends is non-empty, trimmed and free of commas. */
  lemma SetAddsCleanKeys(cur: Option<seq<string>>, value: string)
    ensures var r := Set(cur, value);
            r.Some? ==> forall i :: |cur.GetOr([])| <= i < |r.value| ==> CleanKey(r.value[i])
  {
    AppendTail(cur, KeysOf(value));
  }

  /** What `append` adds sits after the elements already there. */
  lemma AppendTail(cur: Option<seq<string>>, added: seq<string>)
    ensures var r := Append(cur, added);
            var base := cur.GetOr([]);
            r.Some? ==> |r.value| == |base| + |added|
                        && forall i :: |base| <= i < |r.value| ==> r.value[i] == added[i - |base|]
  {
  }

  /** `stringSliceFlag.String`: the keys joined with commas; empty for nil. */
  function String(s: Option<seq<string>>): (r: string)
    ensures s.Some? && s.value != [] && (forall i :: 0 <= i < |s.value| ==> ',' !in s.value[i]) ==>
              Text.Split(r, Comma) == s.value
  {
    match s
    case None => ""
    case Some(keys) =>
      assert keys != [] && (forall i :: 0 <= i < |keys| ==> ',' !in keys[i]) ==>
               Text.Split(Text.Join(keys, Comma), Comma) == keys by {
        if keys != [] && forall i :: 0 <= i < |keys| ==> ',' !in keys[i] {
          CommaSplitJoin(keys);
        }
      }
      Text.Join(keys, Comma)
  }

  /** Printing the flag and setting it from the text gives the keys back. */
  lemma SetParsesString(keys: seq<string>)
    requires forall i :: 0 <= i < |keys| ==> CleanKey(keys[i])
    ensures Set(None, String(Some(keys))) == if keys == [] then None else Some(keys)
  {
    if keys != [] {
      KeysOfString(keys);
      assert [] + keys == keys;
    } else {
      assert Text.Split("", Comma) == [""];
      assert Clean([""]) == CleanOne("") + Clean([]);
    }
  }

  lemma KeysOfString(keys: seq<string>)
    requires keys != []
    requires forall i :: 0 <= i < |keys| ==> CleanKey(keys[i])
    ensures KeysOf(String(Some(keys))) == keys
  {
    CommaSplitJoin(keys);
    CleanOfClean(keys);
  }

  /** Repeating the flag is the same as giving both values at once, separated
      by a comma. */
  lemma SetTwice(cur: Option<seq<string>>, a: string, b: string)
    ensures Set(Set(cur, a), b) == Set(cur, a + Comma + b)
  {
    KeysOfJoined(a, b);
    AppendTwice(cur, KeysOf(a), KeysOf(b));
  }

  /** The keys of two values joined by a comma are the keys of each in turn. */
  lemma KeysOfJoined(a: string, b: string)
    ensures KeysOf(a + Comma + b) == KeysOf(a) + KeysOf(b)
  {
    CommaSplitAround(a, b);
    CleanAppend(Text.Split(a, Comma), Text.Split(b, Comma));
  }

  /** The `-restore` flag after its values were given in order. */
  function RestoreFlag(values: seq<string>): Option<seq<string>>
    decreases |values|
  {
    if values == [] then None else Set(RestoreFlag(values[..|values| - 1]), values[|values| - 1])
  }

  /** The flag after several values holds the keys of their comma-joined text,
      and is never an empty non-nil list. */
  lemma {:induction false} RestoreFlagIsJoin(values: seq<string>)
    requires values != []
    ensures RestoreFlag(values) == Set(None, Text.Join(values, Comma))
    decreases |values|
  {
    var init := values[..|values| - 1];
    var last := values[|values| - 1];
    assert values == init + [last];
    if init == [] {
      assert values == [last];
      assert RestoreFlag(values) == Set(RestoreFlag([]), last);
    } else {
      RestoreFlagIsJoin(init);
      assert RestoreFlag(values) == Set(Set(None, Text.Join(init, Comma)), last);
      SetTwice(None, Text.Join(init, Comma), last);
      JoinSnoc(init, last);
    }
  }

  lemma {:induction false} JoinSnoc(init: seq<string>, last: string)
    requires init != []
    ensures Text.Join(init + [last], Comma) == Text.Join(init, Comma) + Comma + last
    decreases |init|
  {
    if |init| == 1 {
      assert init + [last] == [init[0], last];
    } else {
      JoinSnoc(init[1..], last);
      assert (init + [last])[1..] == init[1..] + [last];
    }
  }

  /** Expanding every restore key as a template, in order; the first failure
      ends the command. */
  function ExpandAll(values: seq<string>, expand: string -> Result<string, Fault>): (r: Result<seq<string>, Fault>)
    ensures r.Ok? <==> forall i :: 0 <= i < |values| ==> expand(values[i]).Ok?
    ensures r.Ok? ==> |r.value| == |values| && forall i :: 0 <= i < |values| ==> expand(values[i]) == Ok(r.value[i])
    ensures r.Err? ==> exists i :: 0 <= i < |values| && expand(values[i]) == Err(r.error)
                                   && forall j :: 0 <= j < i ==> expand(values[j]).Ok?
    decreases |values|
  {
    if values == [] then Ok([])
    else
      match expand(values[0])
      case Err(e) => Err(e)
      case Ok(key) =>
        match ExpandAll(values[1..], expand)
        case Err(e) =>
          assert forall i :: 1 <= i < |values| ==> values[i] == values[1..][i - 1];
          Err(e)
        case Ok(keys) =>
          assert forall i :: 1 <= i < |values| ==> values[i] == values[1..][i - 1];
          Ok([key] + keys)
  }

  /** The flag values `flag.Parse` leaves, with every `-restore` value in order. */
  datatype Flags = Flags(bucket: string, dir: string, cache: string, restoreValues: seq<string>,
                         allowFailure: bool, positional: seq<string>)

  /** `flag.Parse` with `flag.ExitOnError`: the flags, or a request for help
      (exit 0), or a parse error (exit 2). */
  datatype Parse = Parsed(flags: Flags) | ParseHelp | ParseFailed

  /** Which cacher operation the command called. */
  datatype Action = NoAction | SaveCalled(save: SaveRequest) | RestoreCalled(restore: RestoreRequest)

  datatype Exit = Exit(code: int, action: Action)

  /** An argument that asks for help before any parsing. */
  predicate IsHelp(arg: string) {
    arg == "-h" || arg == "--help" || arg == "help"
  }

  predicate HelpRequested(args: seq<string>) {
    exists i | 0 <= i < |args| :: IsHelp(args[i])
  }

  /** The exit code once an operation returned. */
  function Finish(failure: Option<Fault>, allowFailure: bool): int {
    if failure.Some? && !allowFailure then 1 else 0
  }

  /** `main`: `args` is `os.Args`, program name included; `parse` is what
      `flag.Parse` makes of it; `expand` evaluates a key template; `save` and
      `restore` are the failures `saveCache` and `restoreCache` return. */
  function Main(args: seq<string>, parse: Parse, expand: string -> Result<string, Fault>,
                save: SaveRequest -> Option<Fault>, restore: RestoreRequest -> Option<Fault>): (r: Exit)
    ensures HelpRequested(args) ==> r == Exit(0, NoAction)
    ensures !HelpRequested(args) && parse.ParseHelp? ==> r == Exit(0, NoAction)
    ensures !HelpRequested(args) && parse.ParseFailed? ==> r == Exit(2, NoAction)
    ensures r.action.SaveCalled? ==>
              var f := parse.flags;
              && f.positional == [] && f.cache != ""
              && expand(f.cache) == Ok(r.action.save.key)
              && r.action.save == SaveRequest(f.bucket, r.action.save.key, f.dir)
              && r.code == Finish(save(r.action.save), f.allowFailure)
    ensures r.action.RestoreCalled? ==>
              var f := parse.flags;
              var flag := RestoreFlag(f.restoreValues);
              && f.positional == [] && f.cache == "" && flag.Some?
              && |r.action.restore.keys| == |flag.value| > 0
              && (forall i :: 0 <= i < |flag.value| ==> expand(flag.value[i]) == Ok(r.action.restore.keys[i]))
              && r.action.restore.bucket == f.bucket && r.action.restore.dir == f.dir
              && r.code == Finish(restore(r.action.restore), f.allowFailure)
    ensures !HelpRequested(args) && parse.Parsed? ==>
              var f := parse.flags;
              var flag := RestoreFlag(f.restoreValues);
              && (f.positional != [] ==> r == Exit(1, NoAction))
              && (f.positional == [] && f.cache != "" ==>
                    (r.action.SaveCalled? <==> expand(f.cache).Ok?) && (expand(f.cache).Err? ==> r == Exit(1, NoAction)))
              && (f.positional == [] && f.cache == "" && flag.None? ==> r == Exit(1, NoAction))
              && (f.positional == [] && f.cache == "" && flag.Some? ==>
                    && (r.action.RestoreCalled? <==> forall i :: 0 <= i < |flag.value| ==> expand(flag.value[i]).Ok?)
                    && (!r.action.RestoreCalled? ==> r == Exit(1, NoAction)))
    ensures r.action.NoAction? && r.code == 0 ==> HelpRequested(args) || parse.ParseHelp?
    ensures r.code in {0, 1, 2}
  {
    if HelpRequested(args) then Exit(0, NoAction)
    else
      match parse
      case ParseHelp => Exit(0, NoAction)
      case ParseFailed => Exit(2, NoAction)
      case Parsed(f) =>
        if |f.positional| > 0 then Exit(1, NoAction)
        else if f.cache != "" then
          match expand(f.cache)
          case Err(_) => Exit(1, NoAction)
          case Ok(key) =>
            var req := SaveRequest(f.bucket, key, f.dir);
            Exit(Finish(save(req), f.allowFailure), SaveCalled(req))
        else
          match RestoreFlag(f.restoreValues)
          case None => Exit(1, NoAction)
          case Some(values) =>
            RestoreFlagNeverEmpty(f.restoreValues);
            match ExpandAll(values, expand)
            case Err(_) => Exit(1, NoAction)
            case Ok(keys) =>
              var req := RestoreRequest(f.bucket, keys, f.dir);
              Exit(Finish(restore(req), f.allowFailure), RestoreCalled(req))
  }

  /** The `-restore` flag is nil or holds at least one key. */
  lemma RestoreFlagNeverEmpty(values: seq<string>)
    ensures RestoreFlag(values) != Some([])
  {
    if values != [] {
      RestoreFlagIsJoin(values);
      var r := Set(None, Text.Join(values, Comma));
      assert r != Some([]);
    }
  }
}

=== FILE: closing.dfy ===
/**
 * Deferred closes with error chaining. Each stream the cacher opens is closed
 * by a `defer` registered right after it is acquired; Go runs the defers in
 * reverse order, and each one folds its close error into the named result
 * `retErr`.
 */
module Closing {
  import opened Wrappers
  import opened Errors
  import Seqs

  /** A stream registered with `defer`, and the outcome of its `Close`. */
  datatype Closer = Closer(resource: Resource, outcome: Option<Fault>)

  /** One deferred close: a failure is appended to an existing error, or
      becomes the error when there is none; a clean close changes nothing. */
  function CloseInto(retErr: Option<Error>, c: Closer): (r: Option<Error>)
    ensures ChainOf(r) == ChainOf(retErr) + CloseErrorOf(c)
    ensures retErr.Some? ==> r.Some?
  {
    match c.outcome
    case None => retErr
    case Some(cause) =>
      match retErr
      case Some(prior) => Some(Chained(prior, CloseFailed(c.resource, cause)))
      case None => Some(CloseFailed(c.resource, cause))
  }

  /** The defers of `acquired` (in acquisition order) running as the function
      returns `retErr`: the last acquired stream is closed first. */
  function Unwind(retErr: Option<Error>, acquired: seq<Closer>): (r: Option<Error>)
    ensures retErr.Some? ==> r.Some?
    decreases |acquired|
  {
    if acquired == [] then retErr
    else Unwind(CloseInto(retErr, acquired[|acquired| - 1]), acquired[..|acquired| - 1])
  }

  /** The errors an error is made of, oldest first: the original failure
      followed by every close failure chained onto it. Go keeps only the text
      of the prior error in a chain (`%v`) and wraps only the close error
      (`%w`), so `errors.Is` sees the last close failure alone; this list is
      what the message reports. */
  function Causes(e: Error): (cs: seq<Error>)
    ensures |cs| >= 1
  {
    match e
    case Chained(prior, closeError) => Causes(prior) + [closeError]
    case _ => [e]
  }

  /** The causes of a possibly-nil error. */
  function ChainOf(e: Option<Error>): seq<Error> {
    match e
    case None => []
    case Some(err) => Causes(err)
  }

  /** The close errors of `closes`, taken in the order given. */
  function CloseErrors(closes: seq<Closer>): seq<Error> {
    if closes == [] then [] else CloseErrorOf(closes[0]) + CloseErrors(closes[1..])
  }

  /** The error one close contributes: none when it succeeds. */
  function CloseErrorOf(c: Closer): seq<Error> {
    if c.outcome.Some? then [CloseFailed(c.resource, c.outcome.value)] else []
  }

  /** Chaining never loses an error: the result consists of the original
      error's causes followed by every failing close, in reverse acquisition
      order; it is nil exactly when there was no error and every close
      succeeded. */
  lemma {:induction false} UnwindChain(retErr: Option<Error>, acquired: seq<Closer>)
    ensures ChainOf(Unwind(retErr, acquired)) == ChainOf(retErr) + CloseErrors(Seqs.Reverse(acquired))
    ensures Unwind(retErr, acquired).None? <==> retErr.None? && CloseErrors(Seqs.Reverse(acquired)) == []
    decreases |acquired|
  {
    if acquired != [] {
      var last := acquired[|acquired| - 1];
      var init := acquired[..|acquired| - 1];
      var mid := CloseInto(retErr, last);
      var own := CloseErrorOf(last);
      var older := CloseErrors(Seqs.Reverse(init));
      UnwindChain(mid, init);
      CloseErrorsReversed(acquired);
      assert ChainOf(retErr) + (own + older) == ChainOf(retErr) + own + older;
    }
  }

  /** The last acquired stream's close error comes first. */
  lemma CloseErrorsReversed(acquired: seq<Closer>)
    requires acquired != []
    ensures CloseErrors(Seqs.Reverse(acquired))
            == CloseErrorOf(acquired[|acquired| - 1]) + CloseErrors(Seqs.Reverse(acquired[..|acquired| - 1]))
  {
    var rev := Seqs.Reverse(acquired);
    assert rev[1..] == Seqs.Reverse(acquired[..|acquired| - 1]);
  }

  /** Closes that all succeed leave the result untouched. */
  lemma {:induction false} UnwindClean(retErr: Option<Error>, acquired: seq<Closer>)
    requires forall i :: 0 <= i < |acquired| ==> acquired[i].outcome.None?
    ensures Unwind(retErr, acquired) == retErr
    decreases |acquired|
  {
    if acquired != [] {
      UnwindClean(retErr, acquired[..|acquired| - 1]);
    }
  }

  /** An original error stays at the head of the chain whatever the closes do. */
  lemma UnwindKeepsOriginal(e: Error, acquired: seq<Closer>)
    ensures Unwind(Some(e), acquired).Some?
    ensures Causes(e) <= Causes(Unwind(Some(e), acquired).value)
  {
    UnwindChain(Some(e), acquired);
  }
}

=== FILE: errors.dfy ===
/**
 * The errors the cacher returns. Each constructor stands for one
 * `fmt.Errorf` site; the wording is not modelled, only the stage and the key,
 * name or path a message carries, and `%w` wrapping as a nested error.
 */
module Errors {
  import Fs

  /** An error coming from a collaborator the model does not look inside
      (Cloud Storage, gzip, the local disk). */
  datatype Fault = Fault(message: string)

  /** The streams whose deferred `Close` can fail. */
  datatype Resource = GcsWriter | GzipWriter | TarWriter | GcsReader | GzipReader

  datatype Error =
    // request validation
    | MissingOptions                                   // "missing cache options"
    | MissingBucket                                    // "missing bucket"
    | MissingDirectory                                 // "missing directory"
    | MissingKey                                       // "missing key"
    | NoCacheKeys                                      // "expected at least one cache key"
    // restore: key probing and set-up
    | ListAttributesFailed(key: string, cause: Fault)  // "failed to list attributes for <key>"
    | CacheMiss(keys: seq<string>)                     // "failed to find cached objects among keys"
    | MakeTargetFailed(fsCause: Fs.FsError)            // "failed to make target directory"
    | ReaderFailed(cause: Fault)                       // "failed to create object reader"
    | GzipReaderFailed(cause: Fault)                   // "failed to create gzip reader"
    | DownloadFailed(inner: Error)                     // "failed to download file: %w"
    // restore: replaying the archive
    | ReadHeaderFailed(cause: Fault)                   // "failed to read header"
    | MakeDirFailed(fsCause: Fs.FsError)               // "failed to make directory"
    | MakeParentFailed(fsCause: Fs.FsError)            // "failed to make parent directory"
    | OpenFailed(fsCause: Fs.FsError)                  // "failed to open"
    | UnknownHeaderType(typeflag: char, target: Fs.Path) // "unknown header type <flag> for <target>"
    // save: walking and archiving
    | WalkFilesFailed(inner: Error)                    // "failed to walk files: %w"
    | WalkError(name: string, cause: Fault)            // the error `filepath.Walk` hands to the callback
    | WriteHeaderFailed(name: string, cause: Fault)    // "failed to write tar header for <name>"
    | OpenFileFailed(name: string, cause: Fault)       // "failed to open"
    | WriteTarFailed(name: string, cause: Fault)       // "failed to write tar"
    // deferred closes
    | CloseFailed(resource: Resource, cause: Fault)    // "failed to close <resource>"
    // "<prior>: failed to close <resource>: <cause>": Go formats the prior
    // error with %v, as text only, and wraps just the close error with %w;
    // the model keeps the prior error structured so its causes can be listed
    | Chained(prior: Error, closeError: Error)
}

=== FILE: fs.dfy ===
/**
 * An abstract local filesystem: a map from slash-free path components to
 * nodes. It stands in for the `os` calls the cacher makes (`MkdirAll`,
 * `OpenFile` followed by `io.Copy`) and for `filepath.Join` / `filepath.Dir`.
 */
module Fs {
  import opened Wrappers
  import Text

  newtype byte = x: int | 0 <= x < 256

  /** A cleaned path as its list of components; `[]` is the directory the
      relative paths are resolved against and always exists. */
  type Path = seq<string>

  /** A node on disk. There are no symbolic links: the calls modelled here
      never meet one that they would have to follow. */
  datatype Node = Directory | File(mode: nat, content: seq<byte>)

  /** What a real filesystem guarantees: every proper ancestor of a node is a
      directory, and the root is not a node of its own. */
  predicate WellFormed(m: map<Path, Node>) {
    && [] !in m
    && forall p, k :: p in m && 0 < k < |p| ==> p[..k] in m && m[p[..k]] == Directory
  }

  type FileSystem = m: map<Path, Node> | WellFormed(m) witness map[]

  /** The errno-style failures of the calls the model covers. */
  datatype FsError =
    | NotADirectory(path: Path)   // ENOTDIR: a file sits where a directory is needed
    | IsADirectory(path: Path)    // EISDIR: a directory opened for writing
    | NoSuchFile(path: Path)      // ENOENT: the parent directory is missing

  /** A cleaned path: no empty or "." component, and ".." only in a leading
      run (a ".." that climbs above the directory the path is relative to). */
  predicate Cleaned(p: Path) {
    && (forall i :: 0 <= i < |p| ==> p[i] != "" && p[i] != ".")
    && (forall i, j :: 0 <= j < i < |p| && p[i] == ".." ==> p[j] == "..")
  }

  /** One piece of `filepath.Clean`: "" and "." vanish, ".." removes the last
      component unless there is none or it is a ".." itself (then it is
      kept), and any other piece is appended. */
  function CleanStep(acc: Path, piece: string): (p: Path)
    ensures Cleaned(acc) ==> Cleaned(p)
    ensures forall x :: x in p ==> x in acc || x == piece
  {
    if piece == "" || piece == "." then acc
    else if piece == ".." && |acc| > 0 && acc[|acc| - 1] != ".." then acc[..|acc| - 1]
    else acc + [piece]
  }

  /** The cleaned path `acc` continued with `pieces`, left to right. */
  function Resolve(acc: Path, pieces: seq<string>): (p: Path)
    ensures Cleaned(acc) ==> Cleaned(p)
    ensures forall x :: x in p ==> x in acc || x in pieces
    decreases |pieces|
  {
    if pieces == [] then acc
    else
      var p := Resolve(CleanStep(acc, pieces[0]), pieces[1..]);
      assert forall x :: x in pieces[1..] ==> x in pieces;
      p
  }

  /** Continuing with two lists of pieces is continuing with the first, then
      the second. */
  lemma {:induction false} ResolveAppend(acc: Path, a: seq<string>, b: seq<string>)
    ensures Resolve(acc, a + b) == Resolve(Resolve(acc, a), b)
    decreases |a|
  {
    if a == [] {
      assert a + b == b;
    } else {
      assert (a + b)[0] == a[0];
      assert (a + b)[1..] == a[1..] + b;
      ResolveAppend(CleanStep(acc, a[0]), a[1..], b);
    }
  }

  /** The path separator. */
  const Slash: string := "/"

  /** `filepath.Clean` of a slash-separated path, as its components. Absolute
      and relative paths are not told apart: a leading ".." is kept. */
  function PathOf(s: string): (p: Path)
    ensures Cleaned(p)
    ensures forall x :: x in p ==> '/' !in x
  {
    Text.SplitPiecesAvoid(s, '/');
    Resolve([], Text.Split(s, Slash))
  }

  /** `filepath.Join(dir, name)`: `dir` cleaned, continued with the pieces of
      `name` (`JoinPathCleans` shows this is cleaning `dir/name`). */
  function JoinPath(dir: string, name: string): Path {
    Resolve(PathOf(dir), Text.Split(name, Slash))
  }

  /** Joining is cleaning the two strings put together with a separator. */
  lemma JoinPathCleans(dir: string, name: string)
    ensures JoinPath(dir, name) == PathOf(dir + Slash + name)
  {
    Text.SplitAround(dir, '/', name);
    assert dir + Slash + name == dir + ['/'] + name;
    ResolveAppend([], Text.Split(dir, Slash), Text.Split(name, Slash));
  }

  /** ".." is resolved against the component before it: "x/../f" is "f". */
  lemma CleanResolvesParent()
    ensures PathOf("x/../f") == ["f"]
  {
    SplitParentExample();
    ResolveParentExample();
  }

  lemma ResolveParentExample()
    ensures Resolve([], ["x", "..", "f"]) == ["f"]
  {
    var parts := ["x", "..", "f"];
    assert CleanStep([], "x") == ["x"];
    assert CleanStep(["x"], "..") == [];
    assert Resolve([], parts) == Resolve(["x"], parts[1..]);
    assert Resolve(["x"], parts[1..]) == Resolve([], parts[2..]);
  }

  lemma SplitParentExample()
    ensures Text.Split("x/../f", Slash) == ["x", "..", "f"]
  {
    var parts := ["x", "..", "f"];
    assert Text.Join(parts[2..], Slash) == "f";
    assert Text.Join(parts[1..], Slash) == "../f";
    assert Text.Join(parts, Slash) == "x/../f";
    SplitLiteral(parts, "x/../f");
  }

  /** A leading ".." has nothing to resolve against and stays. */
  lemma CleanKeepsLeadingParent()
    ensures PathOf("../f") == ["..", "f"]
  {
    var parts := ["..", "f"];
    assert Text.Join(parts[1..], Slash) == "f";
    assert Text.Join(parts, Slash) == "../f";
    SplitLiteral(parts, "../f");
    assert Resolve([], parts) == Resolve([".."], ["f"]);
  }

  /** Joining "../f" to "x" leaves `x`: the result is "f". */
  lemma JoinLeavesDir()
    ensures JoinPath("x", "../f") == ["f"]
  {
    JoinPathCleans("x", "../f");
    assert "x" + Slash + "../f" == "x/../f";
    CleanResolvesParent();
  }


  /** The pieces of a path written out with slashes. */
  lemma SplitLiteral(parts: seq<string>, s: string)
    requires |parts| >= 1 && forall i :: 0 <= i < |parts| ==> '/' !in parts[i]
    requires Text.Join(parts, Slash) == s
    ensures Text.Split(s, Slash) == parts
  {
    Text.SplitJoin(parts, '/');
  }


  /** `filepath.Dir`: the path without its last component (the root is its own parent). */
  function Parent(p: Path): (q: Path)
    ensures |p| > 0 ==> |q| == |p| - 1 && q <= p
    ensures |p| == 0 ==> q == []
  {
    if |p| == 0 then [] else p[..|p| - 1]
  }

  /** `os.MkdirAll`: succeeds when `p` is already a directory, fails when `p` is
      a file, and otherwise creates the parent first and then `p`. */
  function MkdirAll(fs: FileSystem, p: Path): (r: Result<FileSystem, FsError>)
    ensures r.Ok? <==> forall k :: 0 < k <= |p| ==> !(p[..k] in fs && fs[p[..k]].File?)
    ensures r.Ok? ==> forall k :: 0 < k <= |p| ==> p[..k] in r.value && r.value[p[..k]] == Directory
    ensures r.Ok? ==> forall q :: q in fs ==> q in r.value && r.value[q] == fs[q]
    ensures r.Ok? ==> forall q :: q in r.value && q !in fs ==> q <= p && r.value[q] == Directory
    ensures r.Err? ==> r.error.NotADirectory? && r.error.path <= p
                       && r.error.path in fs && fs[r.error.path].File?
    decreases |p|
  {
    if p == [] then Ok(fs)
    else if p in fs then
      if fs[p] == Directory then
        assert p[..|p|] == p;
        Ok(fs)
      else
        assert p[..|p|] == p;
        Err(NotADirectory(p))
    else
      match MkdirAll(fs, Parent(p))
      case Err(e) =>
        assert forall k :: 0 < k <= |Parent(p)| ==> Parent(p)[..k] == p[..k];
        Err(e)
      case Ok(fs1) =>
        assert forall k :: 0 < k <= |Parent(p)| ==> Parent(p)[..k] == p[..k];
        assert p !in fs1;
        assert p[..|p|] == p;
        var fs2 := fs1[p := Directory];
        assert WellFormed(fs2) by {
          forall q, k | q in fs2 && 0 < k < |q|
            ensures q[..k] in fs2 && fs2[q[..k]] == Directory
          {
            if q == p {
              assert p[..k] == Parent(p)[..k];
            }
          }
        }
        Ok(fs2)
  }

  /** Writing `data` over `prev` from offset 0 without truncating: the bytes past
      the end of `data` keep their previous values. */
  function Overwrite(prev: seq<byte>, data: seq<byte>): (r: seq<byte>)
    ensures |r| == if |data| < |prev| then |prev| else |data|
    ensures r[..|data|] == data
    ensures r[|data|..] == if |data| < |prev| then prev[|data|..] else []
  {
    if |data| < |prev| then data + prev[|data|..] else data
  }

  /** `os.FileMode(mode)`: the conversion keeps the low 32 bits of the header's mode. */
  function FileMode(mode: int): (m: nat)
    ensures m < 0x1_0000_0000
    ensures (m - mode) % 0x1_0000_0000 == 0
  {
    mode % 0x1_0000_0000
  }

  /** The process's file mode creation mask: only its nine permission bits count. */
  type Umask = bv9

  /** The permission bits open(2) gives a file it creates for a Go `FileMode`:
      Go passes `Perm()` together with its own setuid, setgid and sticky flags
      (bits 23, 22 and 20), translated to 04000, 02000 and 01000; the kernel
      then clears the bits set in the umask. The setuid, setgid and sticky bits
      of a tar mode (04000, 02000, 01000) are not Go's flags and are dropped. */
  function CreatedMode(m: bv32, umask: Umask): (r: bv32)
    ensures r < 0x1000
    ensures r & 0x1FF == m & 0x1FF & !(umask as bv32)
    ensures r & 0x200 != 0 <==> m & 0x10_0000 != 0
    ensures r & 0x400 != 0 <==> m & 0x40_0000 != 0
    ensures r & 0x800 != 0 <==> m & 0x80_0000 != 0
  {
    var special := ((m >> 11) & 0x200) | ((m >> 12) & 0x400) | ((m >> 12) & 0x800);
    (m & 0x1FF & !(umask as bv32)) | special
  }

  /** Under umask 022 a tar mode 0100644 or 0666 becomes 0644 and 04755 becomes
      0755; Go's own setuid flag survives as 04000. */
  lemma CreatedModeExamples()
    ensures CreatedMode(0x81A4, 0x12) == 0x1A4
    ensures CreatedMode(0x9ED, 0x12) == 0x1ED
    ensures CreatedMode(0x1B6, 0x12) == 0x1A4
    ensures CreatedMode(0x80_01ED, 0) == 0x9ED
  {
  }

  /** With an empty umask a plain permission mode is created as it is. */
  lemma CreatedModeOfPerm(m: bv32)
    requires m < 0x200
    ensures CreatedMode(m, 0) == m
  {
  }

  /** The mode a file created for a tar header's `mode` ends up with. */
  function NewFileMode(mode: int, umask: Umask): nat {
    CreatedMode(FileMode(mode) as bv32, umask) as int
  }

  /** `os.OpenFile(p, O_CREATE|O_RDWR, FileMode(mode))` followed by copying
      `data` into it. The parent must be an existing directory and `p` must not
      be one. A new file gets the mode open(2) creates it with under `umask`; an
      existing file keeps its mode and is not truncated. */
  function OpenAndCopy(fs: FileSystem, p: Path, mode: int, umask: Umask, data: seq<byte>): (r: Result<FileSystem, FsError>)
    ensures r.Ok? <==> p != [] && (p !in fs || fs[p].File?)
                       && (Parent(p) == [] || (Parent(p) in fs && fs[Parent(p)] == Directory))
    ensures r.Ok? && p !in fs ==> r.value == fs[p := File(NewFileMode(mode, umask), data)]
    ensures r.Ok? && p in fs ==>
              r.value == fs[p := File(fs[p].mode, Overwrite(fs[p].content, data))]
  {
    var parent := Parent(p);
    if p == [] then Err(IsADirectory(p))
    else if parent != [] && parent !in fs then Err(NoSuchFile(p))
    else if parent != [] && fs[parent].File? then Err(NotADirectory(parent))
    else if p in fs && fs[p] == Directory then Err(IsADirectory(p))
    else
      var node := if p in fs then File(fs[p].mode, Overwrite(fs[p].content, data))
                  else File(NewFileMode(mode, umask), data);
      var fs2 := fs[p := node];
      assert WellFormed(fs2) by {
        forall q, k | q in fs2 && 0 < k < |q|
          ensures q[..k] in fs2 && fs2[q[..k]] == Directory
        {
          if q == p {
            assert p[..k] == parent[..k];
            if k < |parent| {
              assert parent[..k] in fs;
            } else {
              assert p[..k] == parent;
            }
          }
        }
      }
      Ok(fs2)
  }
}

=== FILE: replay.dfy ===
/**
 * The extraction loop of `Restore`: tar headers are read one by one and
 * applied to the target directory until the stream ends. A directory header
 * creates the directory, a regular-file header creates the parent and writes
 * the file, and any other type flag stops the loop with an error.
 */
module Replay {
  import opened Wrappers
  import opened Errors
  import opened Fs

  /** What `tar.Reader.Next` hands back, by type flag. */
  datatype TarHeader =
    | NoHeader                                              // a nil header with a nil error
    | DirHeader(name: string)                               // tar.TypeDir
    | RegHeader(name: string, mode: int, content: seq<byte>) // tar.TypeReg, with the entry's bytes
    | OtherHeader(name: string, typeflag: char)             // any other type flag

  /** How the header stream ends: `io.EOF`, or another read error. */
  datatype StreamEnd = Eof | ReadFault(cause: Fault)

  /** The filesystem after the loop stopped, and its error if it failed. */
  datatype Replayed = Replayed(fs: FileSystem, err: Option<Error>)

  /** `filepath.Join(dir, header.Name)`. */
  function Target(dir: string, h: TarHeader): Path
    requires !h.NoHeader?
  {
    JoinPath(dir, h.name)
  }

  /** No proper ancestor of `t` is a file in `fs`. */
  predicate AncestorsFree(fs: FileSystem, t: Path) {
    forall k :: 0 < k < |t| ==> !(t[..k] in fs && fs[t[..k]].File?)
  }

  /** How one header may change the filesystem: every node except a written
      target keeps its value, new nodes lie on the way to the target and are
      directories unless they are the written target, and files stay files and
      directories stay directories. */
  predicate Grows(fs: FileSystem, fs': FileSystem, t: Path, written: bool) {
    && (forall q :: q in fs && !(written && q == t) ==> q in fs' && fs'[q] == fs[q])
    && (forall q :: q in fs' && q !in fs ==> q <= t && (fs'[q] == Directory || (written && q == t)))
    && (forall q :: q in fs && fs[q].File? ==> q in fs' && fs'[q].File?)
    && (forall q :: q in fs && fs[q] == Directory ==> q in fs' && fs'[q] == Directory)
  }

  /** A directory header: `os.MkdirAll(target, 0755)`. */
  function MakeDir(fs: FileSystem, t: Path): (r: Replayed)
    ensures r.err.None? <==> AncestorsFree(fs, t) && !(t in fs && fs[t].File?)
    ensures r.err.None? && t != [] ==> t in r.fs && r.fs[t] == Directory
    ensures Grows(fs, r.fs, t, false)
  {
    assert t[..|t|] == t;
    match MkdirAll(fs, t)
    case Err(e) => Replayed(fs, Some(MakeDirFailed(e)))
    case Ok(fs1) => Replayed(fs1, None)
  }

  /** A regular-file header: create the parent directories, then open the
      target with `O_CREATE|O_RDWR` and copy the entry's bytes into it. */
  function WriteFile(fs: FileSystem, t: Path, mode: int, umask: Umask, content: seq<byte>): (r: Replayed)
    ensures r.err.None? <==> t != [] && AncestorsFree(fs, t) && !(t in fs && fs[t] == Directory)
    ensures r.err.None? ==>
              t in r.fs && r.fs[t] == if t in fs then File(fs[t].mode, Overwrite(fs[t].content, content))
                                      else File(NewFileMode(mode, umask), content)
    ensures Grows(fs, r.fs, t, true)
  {
    var parent := Parent(t);
    assert forall k :: 0 < k <= |parent| ==> parent[..k] == t[..k];
    match MkdirAll(fs, parent)
    case Err(e) => Replayed(fs, Some(MakeParentFailed(e)))
    case Ok(fs1) =>
      assert t !in fs1 ==> t !in fs;
      assert t in fs ==> t in fs1 && fs1[t] == fs[t];
      assert t != [] ==> parent == [] || (parent in fs1 && fs1[parent] == Directory) by {
        if t != [] && parent != [] {
          assert parent[..|parent|] == parent;
        }
      }
      match OpenAndCopy(fs1, t, mode, umask, content)
      case Err(e) => Replayed(fs1, Some(OpenFailed(e)))
      case Ok(fs2) => Replayed(fs2, None)
  }

  /** One iteration of the loop body: a nil header is skipped, a directory or
      regular-file header is applied to its target, and any other type flag
      fails naming the target. */
  function Step(fs: FileSystem, dir: string, umask: Umask, h: TarHeader): (r: Replayed)
    ensures h.NoHeader? ==> r == Replayed(fs, None)
    ensures h.OtherHeader? ==> r == Replayed(fs, Some(UnknownHeaderType(h.typeflag, Target(dir, h))))
    ensures h.DirHeader? ==> r == MakeDir(fs, Target(dir, h))
    ensures h.RegHeader? ==> r == WriteFile(fs, Target(dir, h), h.mode, umask, h.content)
    ensures !h.NoHeader? ==> Grows(fs, r.fs, Target(dir, h), h.RegHeader?)
  {
    match h
    case NoHeader => Replayed(fs, None)
    case DirHeader(name) => MakeDir(fs, Target(dir, h))
    case RegHeader(name, mode, content) => WriteFile(fs, Target(dir, h), mode, umask, content)
    case OtherHeader(name, flag) => Replayed(fs, Some(UnknownHeaderType(flag, Target(dir, h))))
  }

  /** The loop: headers in stream order, then the stream's end. The first
      failing header stops it; the filesystem keeps what was done so far. */
  function Replay(fs: FileSystem, dir: string, umask: Umask, headers: seq<TarHeader>, end: StreamEnd): (r: Replayed)
    ensures r.err.None? ==> end.Eof?
    decreases |headers|
  {
    if headers == [] then
      match end
      case Eof => Replayed(fs, None)
      case ReadFault(cause) => Replayed(fs, Some(ReadHeaderFailed(cause)))
    else
      var s := Step(fs, dir, umask, headers[0]);
      if s.err.Some? then s else Replay(s.fs, dir, umask, headers[1..], end)
  }

  /** Replaying a concatenation is replaying the first part, then — only if
      it succeeded — the second part from where the first left the filesystem. */
  lemma {:induction false} ReplayPrefix(fs: FileSystem, dir: string, umask: Umask, first: seq<TarHeader>,
                                        rest: seq<TarHeader>, end: StreamEnd)
    ensures var p := Replay(fs, dir, umask, first, Eof);
            Replay(fs, dir, umask, first + rest, end) == if p.err.None? then Replay(p.fs, dir, umask, rest, end) else p
    decreases |first|
  {
    if first == [] {
      assert first + rest == rest;
    } else {
      var s := Step(fs, dir, umask, first[0]);
      assert (first + rest)[0] == first[0];
      assert (first + rest)[1..] == first[1..] + rest;
      if s.err.None? {
        ReplayPrefix(s.fs, dir, umask, first[1..], rest, end);
      }
    }
  }

  /** A nil header is skipped as if it were not there. */
  lemma NoHeaderSkipped(fs: FileSystem, dir: string, umask: Umask, before: seq<TarHeader>, after: seq<TarHeader>, end: StreamEnd)
    ensures Replay(fs, dir, umask, before + [NoHeader] + after, end) == Replay(fs, dir, umask, before + after, end)
  {
    ReplayPrefix(fs, dir, umask, before, [NoHeader] + after, end);
    ReplayPrefix(fs, dir, umask, before, after, end);
    assert before + [NoHeader] + after == before + ([NoHeader] + after);
    assert ([NoHeader] + after)[1..] == after;
  }

  /** An unsupported type flag ends the loop with an error naming its target;
      no later header is applied. */
  lemma UnknownTypeStops(fs: FileSystem, dir: string, umask: Umask, before: seq<TarHeader>, name: string,
                         flag: char, after: seq<TarHeader>, end: StreamEnd)
    ensures var p := Replay(fs, dir, umask, before, Eof);
            p.err.None? ==>
              Replay(fs, dir, umask, before + [OtherHeader(name, flag)] + after, end)
              == Replayed(p.fs, Some(UnknownHeaderType(flag, JoinPath(dir, name))))
  {
    ReplayPrefix(fs, dir, umask, before, [OtherHeader(name, flag)] + after, end);
    assert before + [OtherHeader(name, flag)] + after == before + ([OtherHeader(name, flag)] + after);
  }

  /** The loop succeeds only by reaching `io.EOF`, and never past an
      unsupported entry; every directory header's target is then a directory. */
  lemma ReplaySuccess(fs: FileSystem, dir: string, umask: Umask, headers: seq<TarHeader>, end: StreamEnd)
    ensures var r := Replay(fs, dir, umask, headers, end);
            r.err.None? ==>
              && end == Eof
              && (forall i :: 0 <= i < |headers| ==> !headers[i].OtherHeader?)
              && (forall i :: 0 <= i < |headers| && headers[i].DirHeader? && Target(dir, headers[i]) != [] ==>
                    Target(dir, headers[i]) in r.fs && r.fs[Target(dir, headers[i])] == Directory)
              && (forall i :: 0 <= i < |headers| && headers[i].RegHeader? ==>
                    Target(dir, headers[i]) in r.fs && r.fs[Target(dir, headers[i])].File?)
  {
    ReplayReachesEof(fs, dir, umask, headers, end);
    ReplayBuildsTargets(fs, dir, umask, headers, end);
  }

  lemma {:induction false} ReplayReachesEof(fs: FileSystem, dir: string, umask: Umask, headers: seq<TarHeader>, end: StreamEnd)
    ensures Replay(fs, dir, umask, headers, end).err.None? ==>
              end == Eof && forall i :: 0 <= i < |headers| ==> !headers[i].OtherHeader?
    decreases |headers|
  {
    if headers != [] {
      var s := Step(fs, dir, umask, headers[0]);
      if s.err.None? {
        assert Replay(fs, dir, umask, headers, end) == Replay(s.fs, dir, umask, headers[1..], end);
        ReplayReachesEof(s.fs, dir, umask, headers[1..], end);
        assert forall i :: 1 <= i < |headers| ==> headers[i] == headers[1..][i - 1];
      }
    }
  }

  lemma {:induction false} ReplayBuildsTargets(fs: FileSystem, dir: string, umask: Umask, headers: seq<TarHeader>, end: StreamEnd)
    ensures var r := Replay(fs, dir, umask, headers, end);
            r.err.None? ==>
              && (forall i :: 0 <= i < |headers| && headers[i].DirHeader? && Target(dir, headers[i]) != [] ==>
                    Target(dir, headers[i]) in r.fs && r.fs[Target(dir, headers[i])] == Directory)
              && (forall i :: 0 <= i < |headers| && headers[i].RegHeader? ==>
                    Target(dir, headers[i]) in r.fs && r.fs[Target(dir, headers[i])].File?)
    decreases |headers|
  {
    if headers != [] {
      var s := Step(fs, dir, umask, headers[0]);
      if s.err.None? {
        assert Replay(fs, dir, umask, headers, end) == Replay(s.fs, dir, umask, headers[1..], end);
        ReplayBuildsTargets(s.fs, dir, umask, headers[1..], end);
        ReplayKeepsKinds(s.fs, dir, umask, headers[1..], end);
        assert forall i :: 1 <= i < |headers| ==> headers[i] == headers[1..][i - 1];
      }
    }
  }

  /** Files stay files and directories stay directories through the loop. */
  lemma {:induction false} ReplayKeepsKinds(fs: FileSystem, dir: string, umask: Umask, headers: seq<TarHeader>, end: StreamEnd)
    ensures var r := Replay(fs, dir, umask, headers, end);
            && (forall q :: q in fs && fs[q].File? ==> q in r.fs && r.fs[q].File?)
            && (forall q :: q in fs && fs[q] == Directory ==> q in r.fs && r.fs[q] == Directory)
    decreases |headers|
  {
    if headers != [] {
      var s := Step(fs, dir, umask, headers[0]);
      if s.err.None? {
        ReplayKeepsKinds(s.fs, dir, umask, headers[1..], end);
      }
    }
  }

  /** A node no regular-file header writes to is left exactly as it was, even
      when the loop fails. */
  lemma {:induction false} ReplayLeavesUntargeted(fs: FileSystem, dir: string, umask: Umask, headers: seq<TarHeader>,
                                                  end: StreamEnd, q: Path)
    requires q in fs
    requires forall i :: 0 <= i < |headers| && headers[i].RegHeader? ==> Target(dir, headers[i]) != q
    ensures q in Replay(fs, dir, umask, headers, end).fs && Replay(fs, dir, umask, headers, end).fs[q] == fs[q]
    decreases |headers|
  {
    if headers != [] {
      var s := Step(fs, dir, umask, headers[0]);
      if s.err.None? {
        assert forall i :: 1 <= i < |headers| ==> headers[i] == headers[1..][i - 1];
        ReplayLeavesUntargeted(s.fs, dir, umask, headers[1..], end, q);
      }
    }
  }

  /** Every node the loop adds lies on the path to some header's target. */
  lemma {:induction false} ReplayAddsOnlyTargetPaths(fs: FileSystem, dir: string, umask: Umask, headers: seq<TarHeader>,
                                                     end: StreamEnd)
    ensures forall q :: q in Replay(fs, dir, umask, headers, end).fs && q !in fs ==>
              exists i :: 0 <= i < |headers| && !headers[i].NoHeader? && q <= Target(dir, headers[i])
    decreases |headers|
  {
    if headers != [] {
      var s := Step(fs, dir, umask, headers[0]);
      if s.err.None? {
        ReplayAddsOnlyTargetPaths(s.fs, dir, umask, headers[1..], end);
        forall q | q in Replay(fs, dir, umask, headers, end).fs && q !in fs
          ensures exists i :: 0 <= i < |headers| && !headers[i].NoHeader? && q <= Target(dir, headers[i])
        {
          if q in s.fs {
            assert !headers[0].NoHeader? && q <= Target(dir, headers[0]);
          } else {
            var i :| 0 <= i < |headers[1..]| && !headers[1..][i].NoHeader? && q <= Target(dir, headers[1..][i]);
            assert headers[1..][i] == headers[i + 1];
          }
        }
      }
    }
  }

  /** A file written by exactly one header into a place where nothing existed
      ends up with that header's mode and bytes when the loop succeeds. */
  lemma {:induction false} ReplayWritesFreshFile(fs: FileSystem, dir: string, umask: Umask, headers: seq<TarHeader>,
                                                 end: StreamEnd, i: int)
    requires 0 <= i < |headers| && headers[i].RegHeader?
    requires Target(dir, headers[i]) !in fs || fs[Target(dir, headers[i])] == Directory
    requires forall j :: 0 <= j < |headers| && j != i && headers[j].RegHeader? ==>
               Target(dir, headers[j]) != Target(dir, headers[i])
    ensures var r := Replay(fs, dir, umask, headers, end);
            var t := Target(dir, headers[i]);
            r.err.None? ==> t in r.fs && r.fs[t] == File(NewFileMode(headers[i].mode, umask), headers[i].content)
    decreases |headers|
  {
    if i == 0 {
      FreshFileAtHead(fs, dir, umask, headers, end);
    } else {
      var t := Target(dir, headers[i]);
      var s := Step(fs, dir, umask, headers[0]);
      if s.err.None? {
        var rest := headers[1..];
        assert Replay(fs, dir, umask, headers, end) == Replay(s.fs, dir, umask, rest, end);
        assert rest[i - 1] == headers[i];
        StepKeepsRoom(fs, dir, umask, headers[0], t);
        forall j | 0 <= j < |rest| && j != i - 1 && rest[j].RegHeader?
          ensures Target(dir, rest[j]) != Target(dir, rest[i - 1])
        {
          assert rest[j] == headers[j + 1];
        }
        ReplayWritesFreshFile(s.fs, dir, umask, rest, end, i - 1);
      }
    }
  }

  /** A step that does not write a file at `t` leaves no file there. */
  lemma StepKeepsRoom(fs: FileSystem, dir: string, umask: Umask, h: TarHeader, t: Path)
    requires t !in fs || fs[t] == Directory
    requires h.RegHeader? ==> Target(dir, h) != t
    ensures var s := Step(fs, dir, umask, h);
            t !in s.fs || s.fs[t] == Directory
  {
  }

  /** The first header writes the file, and no later one touches it. */
  lemma FreshFileAtHead(fs: FileSystem, dir: string, umask: Umask, headers: seq<TarHeader>, end: StreamEnd)
    requires headers != [] && headers[0].RegHeader?
    requires Target(dir, headers[0]) !in fs || fs[Target(dir, headers[0])] == Directory
    requires forall j :: 0 < j < |headers| && headers[j].RegHeader? ==>
               Target(dir, headers[j]) != Target(dir, headers[0])
    ensures var r := Replay(fs, dir, umask, headers, end);
            var t := Target(dir, headers[0]);
            r.err.None? ==> t in r.fs && r.fs[t] == File(NewFileMode(headers[0].mode, umask), headers[0].content)
  {
    var t := Target(dir, headers[0]);
    var s := Step(fs, dir, umask, headers[0]);
    if s.err.None? {
      var rest := headers[1..];
      assert Replay(fs, dir, umask, headers, end) == Replay(s.fs, dir, umask, rest, end);
      assert s.fs[t] == File(NewFileMode(headers[0].mode, umask), headers[0].content);
      forall j | 0 <= j < |rest| && rest[j].RegHeader?
        ensures Target(dir, rest[j]) != t
      {
        assert rest[j] == headers[j + 1];
      }
      ReplayLeavesUntargeted(s.fs, dir, umask, rest, end, t);
    }
  }

  /** The headers of an archive of regular files, all written to targets that
      do not exist yet, none of which lies under another, and none under an
      existing file. */
  predicate Unpackable(fs: FileSystem, dir: string, headers: seq<TarHeader>) {
    && (forall i :: 0 <= i < |headers| ==> headers[i].RegHeader?)
    && (forall i :: 0 <= i < |headers| ==>
          Target(dir, headers[i]) != [] && Target(dir, headers[i]) !in fs
          && AncestorsFree(fs, Target(dir, headers[i])))
    && (forall i, j :: 0 <= i < |headers| && 0 <= j < |headers| && i != j ==>
          !(Target(dir, headers[j]) <= Target(dir, headers[i])))
  }

  /** Unpacking such an archive stops only at the end of the stream. */
  lemma {:induction false} UnpackableReplays(fs: FileSystem, dir: string, umask: Umask, headers: seq<TarHeader>, end: StreamEnd)
    requires Unpackable(fs, dir, headers)
    ensures Replay(fs, dir, umask, headers, end).err
            == match end case Eof => None case ReadFault(cause) => Some(ReadHeaderFailed(cause))
    decreases |headers|
  {
    if headers != [] {
      var s := Step(fs, dir, umask, headers[0]);
      UnpackableAfterStep(fs, dir, umask, headers);
      assert Replay(fs, dir, umask, headers, end) == Replay(s.fs, dir, umask, headers[1..], end);
      UnpackableReplays(s.fs, dir, umask, headers[1..], end);
    }
  }

  /** The first header of such an archive is written, and the others still
      form one over the grown filesystem. */
  lemma UnpackableAfterStep(fs: FileSystem, dir: string, umask: Umask, headers: seq<TarHeader>)
    requires headers != [] && Unpackable(fs, dir, headers)
    ensures var s := Step(fs, dir, umask, headers[0]);
            s.err.None? && Unpackable(s.fs, dir, headers[1..])
  {
    var s := Step(fs, dir, umask, headers[0]);
    assert s.err.None?;
    forall i | 1 <= i < |headers|
      ensures Target(dir, headers[i]) !in s.fs && AncestorsFree(s.fs, Target(dir, headers[i]))
    {
      StepSparesTarget(fs, dir, umask, headers[0], Target(dir, headers[i]));
    }
    UnpackableTail(fs, s.fs, dir, headers);
  }

  /** Writing a fresh file leaves any other fresh target, neither above nor
      below it, fresh and free of files on its way. */
  lemma StepSparesTarget(fs: FileSystem, dir: string, umask: Umask, h: TarHeader, u: Path)
    requires h.RegHeader?
    requires Target(dir, h) != [] && Target(dir, h) !in fs && AncestorsFree(fs, Target(dir, h))
    requires u != [] ==> u !in fs && AncestorsFree(fs, u) && !(Target(dir, h) <= u) && !(u <= Target(dir, h))
    ensures var s := Step(fs, dir, umask, h);
            s.err.None? && (u != [] ==> u !in s.fs && AncestorsFree(s.fs, u))
  {
    var t := Target(dir, h);
    var s := Step(fs, dir, umask, h);
    if u != [] {
      forall k | 0 < k < |u|
        ensures !(u[..k] in s.fs && s.fs[u[..k]].File?)
      {
        if u[..k] in s.fs && u[..k] !in fs {
          assert u[..k] <= t;
          assert u[..k] != t;
        }
      }
    }
  }

  /** The tail of an archive stays unpackable over any filesystem in which
      its targets are still fresh. */
  lemma UnpackableTail(fs: FileSystem, fs': FileSystem, dir: string, headers: seq<TarHeader>)
    requires headers != [] && Unpackable(fs, dir, headers)
    requires forall i :: 1 <= i < |headers| ==>
               Target(dir, headers[i]) !in fs' && AncestorsFree(fs', Target(dir, headers[i]))
    ensures Unpackable(fs', dir, headers[1..])
  {
    var rest := headers[1..];
    assert forall i :: 0 <= i < |rest| ==> rest[i] == headers[i + 1];
    assert forall i, j :: 0 <= i < |rest| && 0 <= j < |rest| && i != j ==>
             !(Target(dir, rest[j]) <= Target(dir, rest[i]));
  }

  /** The restore half of the cache round trip: unpacking an archive of
      regular files into fresh, non-overlapping targets succeeds at the end of
      the stream and leaves every entry's bytes at its target, with the mode
      a new file gets under the umask (`NewFileMode`). */
  lemma UnpackRoundTrip(fs: FileSystem, dir: string, umask: Umask, headers: seq<TarHeader>)
    requires Unpackable(fs, dir, headers)
    ensures var r := Replay(fs, dir, umask, headers, Eof);
            && r.err.None?
            && forall i :: 0 <= i < |headers| ==>
                 Target(dir, headers[i]) in r.fs
                 && r.fs[Target(dir, headers[i])] == File(NewFileMode(headers[i].mode, umask), headers[i].content)
  {
    UnpackableReplays(fs, dir, umask, headers, Eof);
    forall i | 0 <= i < |headers|
      ensures Target(dir, headers[i]) in Replay(fs, dir, umask, headers, Eof).fs
              && Replay(fs, dir, umask, headers, Eof).fs[Target(dir, headers[i])]
                 == File(NewFileMode(headers[i].mode, umask), headers[i].content)
    {
      ReplayWritesFreshFile(fs, dir, umask, headers, Eof, i);
    }
  }
}

=== FILE: requests.dfy ===
/**
 * `SaveRequest` / `RestoreRequest` and the field checks `Save` and `Restore`
 * run before touching storage. The checks run in a fixed order and the first
 * one that fails decides the error.
 */
module Requests {
  import opened Wrappers
  import opened Errors

  datatype SaveRequest = SaveRequest(bucket: string, key: string, dir: string)

  datatype RestoreRequest = RestoreRequest(bucket: string, keys: seq<string>, dir: string)

  /** A check as (failed, error reported when it fails). */
  type Check = (bool, Error)

  /** `e` is the error of the first failing check in `checks`. */
  predicate FirstFailing(checks: seq<Check>, e: Error) {
    exists i :: 0 <= i < |checks| && checks[i].0 && e == checks[i].1
                && forall j :: 0 <= j < i ==> !checks[j].0
  }

  /** The checks `Save` runs on a non-nil request, in source order. */
  function SaveChecks(q: SaveRequest): seq<Check> {
    [(q.bucket == "", MissingBucket), (q.dir == "", MissingDirectory), (q.key == "", MissingKey)]
  }

  /** The checks `Restore` runs on a non-nil request, in source order. */
  function RestoreChecks(q: RestoreRequest): seq<Check> {
    [(q.bucket == "", MissingBucket), (q.dir == "", MissingDirectory), (|q.keys| < 1, NoCacheKeys)]
  }

  /** `Save`'s validation: a nil request, then bucket, directory and key. */
  function ValidateSave(req: Option<SaveRequest>): (r: Option<Error>)
    ensures req.None? ==> r == Some(MissingOptions)
    ensures req.Some? ==> (r.None? <==> forall i :: 0 <= i < 3 ==> !SaveChecks(req.value)[i].0)
    ensures req.Some? && r.Some? ==> FirstFailing(SaveChecks(req.value), r.value)
  {
    match req
    case None => Some(MissingOptions)
    case Some(q) =>
      var checks := SaveChecks(q);
      if q.bucket == "" then
        assert checks[0].0;
        Some(MissingBucket)
      else if q.dir == "" then
        assert checks[1].0;
        Some(MissingDirectory)
      else if q.key == "" then
        assert checks[2].0;
        Some(MissingKey)
      else None
  }

  /** `Restore`'s validation: a nil request, then bucket, directory and a
      non-empty key list. */
  function ValidateRestore(req: Option<RestoreRequest>): (r: Option<Error>)
    ensures req.None? ==> r == Some(MissingOptions)
    ensures req.Some? ==> (r.None? <==> forall i :: 0 <= i < 3 ==> !RestoreChecks(req.value)[i].0)
    ensures req.Some? && r.Some? ==> FirstFailing(RestoreChecks(req.value), r.value)
  {
    match req
    case None => Some(MissingOptions)
    case Some(q) =>
      var checks := RestoreChecks(q);
      if q.bucket == "" then
        assert checks[0].0;
        Some(MissingBucket)
      else if q.dir == "" then
        assert checks[1].0;
        Some(MissingDirectory)
      else if |q.keys| < 1 then
        assert checks[2].0;
        Some(NoCacheKeys)
      else None
  }
}

=== FILE: selection.dfy ===
/**
 * The restore key scan: each candidate key's object attributes are fetched in
 * list order; a missing object is skipped, any other failure aborts, and the
 * object updated last wins, an earlier key winning a tie because the
 * comparison is a strict "after".
 */
module Selection {
  import opened Wrappers
  import opened Errors

  /** What fetching one object's attributes gives: its `Updated` time (as an
      integer), `storage.ErrObjectNotExist`, or another error. */
  datatype Probe = Found(updated: int) | NotExist | ProbeFailed(cause: Fault)

  /** The attributes kept of the matching object: its name and update time. */
  datatype ObjectAttrs = ObjectAttrs(name: string, updated: int)

  /** The attribute fold: `best` is the match so far over `keys[..i]`. */
  function Scan(keys: seq<string>, attrs: string -> Probe, i: nat, best: Option<ObjectAttrs>)
    : (r: Result<Option<ObjectAttrs>, Error>)
    requires i <= |keys|
    ensures r.Ok? && r.value.Some? && r.value != best ==>
              r.value.value.name in keys[i..] && attrs(r.value.value.name) == Found(r.value.value.updated)
    ensures r.Ok? && best.Some? ==> r.value.Some? && r.value.value.updated >= best.value.updated
    ensures r.Err? ==> r.error.ListAttributesFailed? && r.error.key in keys[i..]
                       && attrs(r.error.key) == ProbeFailed(r.error.cause)
    decreases |keys| - i
  {
    if i == |keys| then Ok(best)
    else
      var key := keys[i];
      match attrs(key)
      case NotExist => Scan(keys, attrs, i + 1, best)
      case ProbeFailed(cause) => Err(ListAttributesFailed(key, cause))
      case Found(t) =>
        if best.None? || t > best.value.updated then Scan(keys, attrs, i + 1, Some(ObjectAttrs(key, t)))
        else Scan(keys, attrs, i + 1, best)
  }

  /** The object `Restore` downloads, or why there is none. */
  function SelectMatch(keys: seq<string>, attrs: string -> Probe): (r: Result<ObjectAttrs, Error>)
    ensures r.Ok? ==> r.value.name in keys && attrs(r.value.name) == Found(r.value.updated)
    ensures r.Err? ==> r.error == CacheMiss(keys)
                       || (r.error.ListAttributesFailed? && r.error.key in keys
                           && attrs(r.error.key) == ProbeFailed(r.error.cause))
  {
    match Scan(keys, attrs, 0, None)
    case Err(e) => Err(e)
    case Ok(None) => Err(CacheMiss(keys))
    case Ok(Some(m)) => Ok(m)
  }

  /** `keys[f]` is the first key whose probe failed with an error other than "not exist". */
  predicate FirstFailure(keys: seq<string>, attrs: string -> Probe, f: int) {
    && 0 <= f < |keys| && attrs(keys[f]).ProbeFailed?
    && forall i :: 0 <= i < f ==> !attrs(keys[i]).ProbeFailed?
  }

  predicate NoFailure(keys: seq<string>, attrs: string -> Probe) {
    forall i :: 0 <= i < |keys| ==> !attrs(keys[i]).ProbeFailed?
  }

  predicate NoneExists(keys: seq<string>, attrs: string -> Probe) {
    forall i :: 0 <= i < |keys| ==> !attrs(keys[i]).Found?
  }

  /** Among `keys[..n]`, `keys[j]` exists, nothing is newer, and every earlier
      existing key is strictly older. */
  predicate FreshestAmong(keys: seq<string>, attrs: string -> Probe, n: int, j: int) {
    && 0 <= j < n <= |keys| && attrs(keys[j]).Found?
    && (forall i :: 0 <= i < n && attrs(keys[i]).Found? ==> attrs(keys[i]).updated <= attrs(keys[j]).updated)
    && (forall i :: 0 <= i < j && attrs(keys[i]).Found? ==> attrs(keys[i]).updated < attrs(keys[j]).updated)
  }

  predicate Freshest(keys: seq<string>, attrs: string -> Probe, j: int) {
    FreshestAmong(keys, attrs, |keys|, j)
  }

  /** The fold from position `n` on, given that `best` is the right answer for
      `keys[..n]` (witnessed by index `j`). */
  lemma ScanCorrect(keys: seq<string>, attrs: string -> Probe, n: nat, best: Option<ObjectAttrs>, j: int)
    requires n <= |keys|
    requires forall i :: 0 <= i < n ==> !attrs(keys[i]).ProbeFailed?
    requires best.None? ==> forall i :: 0 <= i < n ==> !attrs(keys[i]).Found?
    requires best.Some? ==> FreshestAmong(keys, attrs, n, j)
                            && best.value == ObjectAttrs(keys[j], attrs(keys[j]).updated)
    ensures var r := Scan(keys, attrs, n, best);
            && (forall f :: FirstFailure(keys, attrs, f) ==>
                  r == Err(ListAttributesFailed(keys[f], attrs(keys[f]).cause)))
            && (NoFailure(keys, attrs) <==> r.Ok?)
            && (NoFailure(keys, attrs) ==> (r.value.None? <==> NoneExists(keys, attrs)))
            && (NoFailure(keys, attrs) && r.Ok? && r.value.Some? ==>
                  exists w :: Freshest(keys, attrs, w)
                              && r.value.value == ObjectAttrs(keys[w], attrs(keys[w]).updated))
  {
    forall f | FirstFailure(keys, attrs, f)
      ensures Scan(keys, attrs, n, best) == Err(ListAttributesFailed(keys[f], attrs(keys[f]).cause))
    {
      ScanFindsFailure(keys, attrs, n, best, f);
    }
    if !NoFailure(keys, attrs) {
      var i :| 0 <= i < |keys| && attrs(keys[i]).ProbeFailed?;
      ScanStopsOnFailure(keys, attrs, n, best, i);
    } else {
      var w := ScanWithoutFailure(keys, attrs, n, best, j);
    }
  }

  /** The first failing probe at or after `n` ends the fold with its error. */
  lemma {:induction false} ScanFindsFailure(keys: seq<string>, attrs: string -> Probe, n: nat,
                                            best: Option<ObjectAttrs>, f: int)
    requires n <= f && FirstFailure(keys, attrs, f)
    ensures Scan(keys, attrs, n, best) == Err(ListAttributesFailed(keys[f], attrs(keys[f]).cause))
    decreases |keys| - n
  {
    if n < f {
      var key := keys[n];
      match attrs(key)
      case NotExist =>
        ScanFindsFailure(keys, attrs, n + 1, best, f);
      case Found(t) =>
        if best.None? || t > best.value.updated {
          ScanFindsFailure(keys, attrs, n + 1, Some(ObjectAttrs(key, t)), f);
        } else {
          ScanFindsFailure(keys, attrs, n + 1, best, f);
        }
    }
  }

  /** Any failing probe from `n` on makes the fold fail. */
  lemma {:induction false} ScanStopsOnFailure(keys: seq<string>, attrs: string -> Probe, n: nat,
                                              best: Option<ObjectAttrs>, i: int)
    requires n <= |keys| && 0 <= i < |keys| && attrs(keys[i]).ProbeFailed?
    requires forall k :: 0 <= k < n ==> !attrs(keys[k]).ProbeFailed?
    ensures Scan(keys, attrs, n, best).Err?
    decreases |keys| - n
  {
    var key := keys[n];
    match attrs(key)
    case ProbeFailed(_) =>
    case NotExist =>
      ScanStopsOnFailure(keys, attrs, n + 1, best, i);
    case Found(t) =>
      if best.None? || t > best.value.updated {
        ScanStopsOnFailure(keys, attrs, n + 1, Some(ObjectAttrs(key, t)), i);
      } else {
        ScanStopsOnFailure(keys, attrs, n + 1, best, i);
      }
  }

  /** `best` is the right answer for `keys[..n]`, witnessed by index `j`. */
  predicate BestSoFar(keys: seq<string>, attrs: string -> Probe, n: int, best: Option<ObjectAttrs>, j: int) {
    && 0 <= n <= |keys|
    && (best.None? ==> forall i :: 0 <= i < n ==> !attrs(keys[i]).Found?)
    && (best.Some? ==> FreshestAmong(keys, attrs, n, j) && best.value == ObjectAttrs(keys[j], attrs(keys[j]).updated))
  }

  /** One step of the fold past a key whose probe did not fail keeps the
      answer right. */
  lemma BestStep(keys: seq<string>, attrs: string -> Probe, n: int, best: Option<ObjectAttrs>, j: int)
    returns (best': Option<ObjectAttrs>, j': int)
    requires BestSoFar(keys, attrs, n, best, j) && n < |keys| && !attrs(keys[n]).ProbeFailed?
    ensures Scan(keys, attrs, n, best) == Scan(keys, attrs, n + 1, best')
    ensures BestSoFar(keys, attrs, n + 1, best', j')
  {
    var key := keys[n];
    match attrs(key)
    case NotExist =>
      best', j' := best, j;
    case Found(t) =>
      if best.None? || t > best.value.updated {
        best', j' := Some(ObjectAttrs(key, t)), n;
      } else {
        best', j' := best, j;
      }
  }

  /** Without failing probes the fold ends with nothing exactly when no key
      exists, and otherwise with the freshest key `w`. */
  lemma {:induction false} ScanWithoutFailure(keys: seq<string>, attrs: string -> Probe, n: nat,
                                              best: Option<ObjectAttrs>, j: int) returns (w: int)
    requires NoFailure(keys, attrs) && BestSoFar(keys, attrs, n, best, j)
    ensures var r := Scan(keys, attrs, n, best);
            && r.Ok? && (r.value.None? <==> NoneExists(keys, attrs))
            && (r.value.Some? ==> Freshest(keys, attrs, w) && r.value.value == ObjectAttrs(keys[w], attrs(keys[w]).updated))
    decreases |keys| - n
  {
    if n == |keys| {
      w := j;
    } else {
      var best', j' := BestStep(keys, attrs, n, best, j);
      w := ScanWithoutFailure(keys, attrs, n + 1, best', j');
    }
  }



  /** Key selection as the source promises it: the first probe error aborts
      naming its key; with no error, no existing object is a cache miss naming
      every key; otherwise the match is the freshest object, ties going to the
      earliest key. */
  lemma SelectMatchSpec(keys: seq<string>, attrs: string -> Probe)
    ensures forall f :: FirstFailure(keys, attrs, f) ==>
              SelectMatch(keys, attrs) == Err(ListAttributesFailed(keys[f], attrs(keys[f]).cause))
    ensures SelectMatch(keys, attrs).Ok? ==> NoFailure(keys, attrs) && !NoneExists(keys, attrs)
    ensures NoFailure(keys, attrs) && NoneExists(keys, attrs) ==>
              SelectMatch(keys, attrs) == Err(CacheMiss(keys))
    ensures NoFailure(keys, attrs) && !NoneExists(keys, attrs) ==>
              exists w :: Freshest(keys, attrs, w)
                          && SelectMatch(keys, attrs) == Ok(ObjectAttrs(keys[w], attrs(keys[w]).updated))
  {
    ScanCorrect(keys, attrs, 0, None, 0);
  }

  /** Keys after the first failing probe are never looked at: changing their
      attributes does not change the outcome. */
  lemma ProbingStopsAtFailure(keys: seq<string>, attrs: string -> Probe, other: string -> Probe, f: int)
    requires FirstFailure(keys, attrs, f)
    requires forall i :: 0 <= i <= f ==> other(keys[i]) == attrs(keys[i])
    ensures SelectMatch(keys, other) == SelectMatch(keys, attrs)
  {
    SelectMatchSpec(keys, attrs);
    SelectMatchSpec(keys, other);
    assert FirstFailure(keys, other, f);
  }

  /** The freshest existing key is unique. */
  lemma FreshestUnique(keys: seq<string>, attrs: string -> Probe, j1: int, j2: int)
    requires Freshest(keys, attrs, j1) && Freshest(keys, attrs, j2)
    ensures j1 == j2
  {
  }

  lemma {:induction false} ScanLocal(keys: seq<string>, attrs: string -> Probe, other: string -> Probe,
                                     i: nat, best: Option<ObjectAttrs>)
    requires i <= |keys|
    requires forall k :: 0 <= k < |keys| ==> other(keys[k]) == attrs(keys[k])
    ensures Scan(keys, other, i, best) == Scan(keys, attrs, i, best)
    decreases |keys| - i
  {
    if i < |keys| {
      match attrs(keys[i])
      case Found(t) =>
        ScanLocal(keys, attrs, other, i + 1, best);
        ScanLocal(keys, attrs, other, i + 1, Some(ObjectAttrs(keys[i], t)));
      case _ =>
        ScanLocal(keys, attrs, other, i + 1, best);
    }
  }

  /** Only the listed keys are looked up: lookups that agree on them give the
      same outcome. */
  lemma SelectMatchLocal(keys: seq<string>, attrs: string -> Probe, other: string -> Probe)
    requires forall k :: 0 <= k < |keys| ==> other(keys[k]) == attrs(keys[k])
    ensures SelectMatch(keys, other) == SelectMatch(keys, attrs)
  {
    ScanLocal(keys, attrs, other, 0, None);
  }

  /** With no failed lookup, the match is the freshest key. */
  lemma MatchIsFreshest(keys: seq<string>, attrs: string -> Probe, w: int)
    requires NoFailure(keys, attrs) && Freshest(keys, attrs, w)
    ensures SelectMatch(keys, attrs) == Ok(ObjectAttrs(keys[w], attrs(keys[w]).updated))
  {
    SelectMatchSpec(keys, attrs);
    var v :| Freshest(keys, attrs, v) && SelectMatch(keys, attrs) == Ok(ObjectAttrs(keys[v], attrs(keys[v]).updated));
    FreshestUnique(keys, attrs, v, w);
  }
}

=== FILE: seqs.dfy ===
/** Sequence helpers shared by the modules that build a list piece by piece. */
module Seqs {

  /** What `f` gives for each element, concatenated in order. */
  function FlatMap<A, B>(f: A -> seq<B>, s: seq<A>): seq<B>
    decreases |s|
  {
    if s == [] then [] else f(s[0]) + FlatMap(f, s[1..])
  }

  /** The elements of `s`, last first. */
  function Reverse<T>(s: seq<T>): (r: seq<T>)
    ensures |r| == |s|
    ensures forall i :: 0 <= i < |s| ==> r[i] == s[|s| - 1 - i]
  {
    if s == [] then [] else [s[|s| - 1]] + Reverse(s[..|s| - 1])
  }

  /** Mapping a concatenation maps each part in turn. */
  lemma {:induction false} FlatMapAppend<A, B>(f: A -> seq<B>, a: seq<A>, b: seq<A>)
    ensures FlatMap(f, a + b) == FlatMap(f, a) + FlatMap(f, b)
    decreases |a|
  {
    if a == [] {
      assert a + b == b;
    } else {
      FlatMapAppend(f, a[1..], b);
      assert (a + b)[0] == a[0];
      assert (a + b)[1..] == a[1..] + b;
      assert f(a[0]) + (FlatMap(f, a[1..]) + FlatMap(f, b)) == f(a[0]) + FlatMap(f, a[1..]) + FlatMap(f, b);
    }
  }
}

=== FILE: text.dfy ===
/**
 * The string operations of Go's `strings` package that the cacher relies on:
 * `Split`, `Join`, `Replace` (with n = -1), `TrimPrefix` and `TrimSpace`.
 * Strings are sequences of Unicode scalar values; UTF-8 decoding is not modelled.
 */
module Text {

  /** Go's `unicode.IsSpace`: the Latin-1 spaces plus the White_Space property. */
  predicate IsSpace(c: char) {
    || c == '\t' || c == '\n' || c == '\U{000B}' || c == '\U{000C}' || c == '\r' || c == ' '
    || c == '\U{0085}' || c == '\U{00A0}' || c == '\U{1680}'
    || ('\U{2000}' <= c <= '\U{200A}')
    || c == '\U{2028}' || c == '\U{2029}' || c == '\U{202F}' || c == '\U{205F}' || c == '\U{3000}'
  }

  /** `pat` occurs in `s` starting at index `i`. */
  predicate OccursAt(s: string, pat: string, i: int) {
    0 <= i && i + |pat| <= |s| && s[i..i + |pat|] == pat
  }

  /** Go's `strings.Contains(s, pat)`. */
  predicate Contains(s: string, pat: string) {
    exists i | 0 <= i <= |s| - |pat| :: OccursAt(s, pat, i)
  }

  /** Go's `strings.Split(s, sep)` for a non-empty separator: the pieces between
      the leftmost non-overlapping occurrences of `sep`. */
  function Split(s: string, sep: string): (parts: seq<string>)
    requires |sep| > 0
    ensures |parts| >= 1
    decreases |s|
  {
    if |s| < |sep| then [s]
    else if s[..|sep|] == sep then [""] + Split(s[|sep|..], sep)
    else
      var rest := Split(s[1..], sep);
      [[s[0]] + rest[0]] + rest[1..]
  }

  /** Go's `strings.Join(parts, sep)`. */
  function Join(parts: seq<string>, sep: string): string
    decreases |parts|
  {
    if |parts| == 0 then ""
    else if |parts| == 1 then parts[0]
    else parts[0] + sep + Join(parts[1..], sep)
  }

  /** Go's `strings.Replace(s, pat, repl, -1)` for a non-empty `pat`: every
      leftmost non-overlapping occurrence of `pat` is replaced by `repl`. */
  function ReplaceAll(s: string, pat: string, repl: string): string
    requires |pat| > 0
    decreases |s|
  {
    if |s| < |pat| then s
    else if s[..|pat|] == pat then repl + ReplaceAll(s[|pat|..], pat, repl)
    else [s[0]] + ReplaceAll(s[1..], pat, repl)
  }

  /** Go's `strings.TrimPrefix`: removes one leading copy of `prefix`, if present. */
  function TrimPrefix(s: string, prefix: string): (r: string)
  {
    if prefix <= s then s[|prefix|..] else s
  }

  /** Every character of `s` is white space. */
  predicate AllSpace(s: string) {
    forall k :: 0 <= k < |s| ==> IsSpace(s[k])
  }

  /** The number of white-space characters `s` starts with. */
  function LeadingSpace(s: string): (n: nat)
    ensures n <= |s| && AllSpace(s[..n])
    ensures n < |s| ==> !IsSpace(s[n])
    decreases |s|
  {
    if |s| > 0 && IsSpace(s[0]) then
      var m := LeadingSpace(s[1..]);
      assert s[..m + 1] == [s[0]] + s[1..][..m];
      m + 1
    else 0
  }

  /** The length of `s` without the white space it ends with. */
  function TrailingStart(s: string): (n: nat)
    ensures n <= |s| && AllSpace(s[n..])
    ensures n > 0 ==> !IsSpace(s[n - 1])
    decreases |s|
  {
    if |s| > 0 && IsSpace(s[|s| - 1]) then
      var m := TrailingStart(s[..|s| - 1]);
      assert s[m..] == s[..|s| - 1][m..] + [s[|s| - 1]];
      m
    else |s|
  }

  lemma AllSpaceConcat(a: string, b: string)
    ensures AllSpace(a + b) <==> AllSpace(a) && AllSpace(b)
  {
    if AllSpace(a + b) {
      forall k | 0 <= k < |a| ensures IsSpace(a[k]) { assert a[k] == (a + b)[k]; }
      forall k | 0 <= k < |b| ensures IsSpace(b[k]) { assert b[k] == (a + b)[|a| + k]; }
    }
  }

  /** `r` is `s` with only white space around it. */
  predicate SpaceAround(s: string, r: string) {
    exists i | 0 <= i <= |s| :: OccursAt(s, r, i) && AllSpace(s[..i]) && AllSpace(s[i + |r|..])
  }

  /** Go's `strings.TrimSpace`: the infix of `s` left after removing white space
      from both ends. */
  function TrimSpace(s: string): (r: string)
    ensures r == [] || (!IsSpace(r[0]) && !IsSpace(r[|r| - 1]))
    ensures SpaceAround(s, r)
    ensures r == [] <==> AllSpace(s)
  {
    var i := LeadingSpace(s);
    var t := s[i..];
    var r := t[..TrailingStart(t)];
    assert r == s[i..i + |r|];
    assert s[i + |r|..] == t[|r|..];
    assert OccursAt(s, r, i);
    AllSpaceConcat(s[..i], t);
    assert s == s[..i] + t;
    r
  }

  /** Every character of an occurrence is a character of the enclosing string. */
  lemma OccursAtChars(s: string, pat: string, i: int)
    requires OccursAt(s, pat, i)
    ensures forall c :: c in pat ==> c in s
  {
    forall c | c in pat
      ensures c in s
    {
      var k :| 0 <= k < |pat| && pat[k] == c;
      assert s[i + k] == c;
    }
  }

  /** `Join` inverts `Split`: the pieces glued back with the separator give the
      original string. */
  lemma {:induction false} JoinSplit(s: string, sep: string)
    requires |sep| > 0
    ensures Join(Split(s, sep), sep) == s
    decreases |s|
  {
    if |s| < |sep| {
    } else if s[..|sep|] == sep {
      var rest := Split(s[|sep|..], sep);
      assert Split(s, sep) == [""] + rest;
      JoinSplit(s[|sep|..], sep);
      JoinCons("", rest, sep);
      assert s == sep + s[|sep|..];
    } else {
      var rest := Split(s[1..], sep);
      assert Split(s, sep) == [[s[0]] + rest[0]] + rest[1..];
      JoinSplit(s[1..], sep);
      JoinExtendHead(s[0], rest, sep);
      assert s == [s[0]] + s[1..];
    }
  }

  /** A piece without the (one-character) separator, followed by the separator,
      is split off as one piece. */
  lemma {:induction false} SplitAfterPiece(p: string, c: char, s: string)
    requires c !in p
    ensures Split(p + [c] + s, [c]) == [p] + Split(s, [c])
    decreases |p|
  {
    if p == [] {
      assert p + [c] + s == [c] + s;
      SplitCons(c, s, c);
    } else {
      SplitAfterPiece(p[1..], c, s);
      assert p + [c] + s == [p[0]] + (p[1..] + [c] + s);
      SplitCons(p[0], p[1..] + [c] + s, c);
      assert [p[0]] + p[1..] == p;
    }
  }

  /** No piece of a split on a one-character separator holds that character. */
  lemma {:induction false} SplitPiecesAvoid(s: string, c: char)
    ensures forall i :: 0 <= i < |Split(s, [c])| ==> c !in Split(s, [c])[i]
    decreases |s|
  {
    if s != [] {
      SplitPiecesAvoid(s[1..], c);
    }
  }

  /** A string without the (one-character) separator is a single piece. */
  lemma {:induction false} SplitNoSeparator(p: string, c: char)
    requires c !in p
    ensures Split(p, [c]) == [p]
    decreases |p|
  {
    if p != [] {
      SplitNoSeparator(p[1..], c);
      assert p == [p[0]] + p[1..];
    }
  }

  /** `Split` inverts `Join` when no piece contains the one-character separator. */
  lemma {:induction false} SplitJoin(parts: seq<string>, c: char)
    requires |parts| >= 1
    requires forall i :: 0 <= i < |parts| ==> c !in parts[i]
    ensures Split(Join(parts, [c]), [c]) == parts
    decreases |parts|
  {
    if |parts| == 1 {
      SplitNoSeparator(parts[0], c);
    } else {
      SplitJoin(parts[1..], c);
      SplitAfterPiece(parts[0], c, Join(parts[1..], [c]));
      assert [parts[0]] + parts[1..] == parts;
    }
  }

  /** One step of splitting at a one-character separator: a leading separator
      closes an empty piece, any other character starts the first piece. */
  lemma SplitCons(x: char, s: string, c: char)
    ensures var rest := Split(s, [c]);
            Split([x] + s, [c]) == if x == c then [""] + rest else [[x] + rest[0]] + rest[1..]
  {
    var t := [x] + s;
    assert t[..1] == [x] && t[1..] == s;
  }

  /** Splitting on a one-character separator distributes over a separator:
      the pieces of `a,b` are the pieces of `a` followed by those of `b`. */
  lemma {:induction false} SplitAround(a: string, c: char, b: string)
    ensures Split(a + [c] + b, [c]) == Split(a, [c]) + Split(b, [c])
    decreases |a|
  {
    if a == [] {
      assert a + [c] + b == [c] + b;
      SplitCons(c, b, c);
      assert Split(a, [c]) == [""];
    } else {
      SplitAround(a[1..], c, b);
      assert a + [c] + b == [a[0]] + (a[1..] + [c] + b);
      assert a == [a[0]] + a[1..];
      SplitCons(a[0], a[1..] + [c] + b, c);
      SplitCons(a[0], a[1..], c);
      ConsPieces(a[0], c, Split(a[1..], [c]), Split(b, [c]));
    }
  }

  /** The shape `SplitCons` gives is compatible with appending more pieces. */
  lemma ConsPieces(x: char, c: char, left: seq<string>, right: seq<string>)
    requires |left| >= 1
    ensures var both := left + right;
            (if x == c then [""] + both else [[x] + both[0]] + both[1..])
            == (if x == c then [""] + left else [[x] + left[0]] + left[1..]) + right
  {
    assert (left + right)[0] == left[0];
    assert (left + right)[1..] == left[1..] + right;
  }

  /** `ReplaceAll` is the pieces between occurrences of `pat` joined with `repl`
      (Go's own characterisation of `strings.Replace` with n = -1). */
  lemma {:induction false} ReplaceAllIsJoinOfSplit(s: string, pat: string, repl: string)
    requires |pat| > 0
    ensures ReplaceAll(s, pat, repl) == Join(Split(s, pat), repl)
    decreases |s|
  {
    if |s| < |pat| {
    } else if s[..|pat|] == pat {
      var rest := Split(s[|pat|..], pat);
      ReplaceAllIsJoinOfSplit(s[|pat|..], pat, repl);
      JoinCons("", rest, repl);
    } else {
      var rest := Split(s[1..], pat);
      ReplaceAllIsJoinOfSplit(s[1..], pat, repl);
      JoinExtendHead(s[0], rest, repl);
    }
  }

  /** Joining a leading piece onto a non-empty list inserts one separator. */
  lemma JoinCons(a: string, rest: seq<string>, sep: string)
    requires |rest| >= 1
    ensures Join([a] + rest, sep) == a + sep + Join(rest, sep)
  {
    assert ([a] + rest)[1..] == rest;
  }

  /** Prepending a character to the first piece prepends it to the joined string. */
  lemma JoinExtendHead(c: char, rest: seq<string>, sep: string)
    requires |rest| >= 1
    ensures Join([[c] + rest[0]] + rest[1..], sep) == [c] + Join(rest, sep)
  {
    var parts := [[c] + rest[0]] + rest[1..];
    if |rest| > 1 {
      assert parts[1..] == rest[1..];
    }
  }

  /** Replacing a string that does not occur leaves the input unchanged. */
  lemma {:induction false} ReplaceAllAbsent(s: string, pat: string, repl: string)
    requires |pat| > 0
    requires !Contains(s, pat)
    ensures ReplaceAll(s, pat, repl) == s
    decreases |s|
  {
    if |s| >= |pat| {
      assert !OccursAt(s, pat, 0);
      assert !Contains(s[1..], pat) by {
        forall i | OccursAt(s[1..], pat, i)
          ensures false
        {
          assert OccursAt(s, pat, i + 1) by {
            assert s[i + 1..i + 1 + |pat|] == s[1..][i..i + |pat|];
          }
        }
      }
      ReplaceAllAbsent(s[1..], pat, repl);
      assert s == [s[0]] + s[1..];
    }
  }
}

=== FILE: wrappers.dfy ===
/** Failure-carrying value types shared by every module of the model. */
module Wrappers {

  /** A Go value that may be nil: a pointer, a slice or an error. */
  datatype Option<+T> = None | Some(value: T) {

    /** The wrapped value, or the default when there is none. */
    function GetOr(default: T): T {
      match this
      case Some(v) => v
      case None => default
    }
  }

  /** The (value, error) pair a Go function returns, with exactly one side set. */
  datatype Result<+T, +E> = Ok(value: T) | Err(error: E)
}
